=== FILE: README.md ===
# Betonrun core, modelled in Dafny

Betonrun lets runners stake on a running challenge. A Flask backend keeps
contests in memory, links Strava accounts and credits at most one verified
run per participant per day. A Next.js frontend reads challenges from an
Ethereum contract, shows them split into "participating" and "available",
and walks a creator through a three-step modal.

This project models the logic of both halves as immutable datatypes and
pure functions:

- `wrappers.dfy` (`Wrappers`): `Option` and `Result`.
- `seqs.dfy` (`Seqs`): filters, complementary partitions, ascending order
  and duplicate-free lists.
- `calendar.dfy` (`Calendar`): the part of Python's `datetime` the backend
  relies on. This is the proleptic Gregorian calendar for years 1 to 9999,
  day shifts that overflow at the edges, `toordinal` and `weekday`.
- `strava_manager.dfy` (`StravaManager`):
  - duration formatting;
  - the run-only activity table;
  - the completion test;
  - the month and year query windows.
- `api.dfy` (`Api`): the session athlete and the error replies, each with
  its HTTP status.
- `contests.dfy` (`Contests`): the contest store and the `create`, `join`,
  `list` and `verify-run` routes.
- `auth.dfy` (`Auth`): the authorize URL, the OAuth callback and the
  refresh guard.
- `contract.dfy` (`ContractService`): the goal JSON, `getChallengeDetails`
  and the stub checks.
- `dashboard.dfy` (`Dashboard`): `loadContests` and `handleCreateContest`.
- `create_challenge.dfy` (`CreateChallenge`): the modal's step machine and
  draft edits.

Some things are inputs rather than computed:

- The clock, the session and Strava's replies are parameters.
- The chain is a `ContractService.Node` value: the replies its two read
  calls give.
- The contest dictionary is a sequence in insertion order. Python iterates a
  dictionary in that order, and `Put` models key assignment.
- Floating-point numbers are exact `real`s.
- Integers are unbounded.

## Model

| member | source | states |
|---|---|---|
| StravaManager.Decompose | backend/app/strava_manager.py:367-368 | the two `divmod` steps give hours, minutes and seconds that add back up to the input, with minutes and seconds in 0..59 (negative inputs too, as with Python's floor division) |
| StravaManager.DecomposeUnique | backend/app/strava_manager.py:367-368 | any hours/minutes/seconds triple with minutes and seconds below 60 that adds up to the input is that decomposition |
| StravaManager.Pad2 | backend/app/strava_manager.py:371-373 | `{:02}` pads to at least two characters: exactly two for 0..99 with a leading "0" only below 10, no leading zero from 10 on (wider numbers are kept whole), only digits for non-negative values, and "-" followed by the digits of the magnitude for negative ones |
| StravaManager.Pad2Value | backend/app/strava_manager.py:371-373 | the padded digits still denote the number |
| StravaManager.DigitsRoundTrip | backend/app/strava_manager.py:371-373 | decimal digits read back as the number they render |
| StravaManager.SecondsToHms | backend/app/strava_manager.py:360-374 | a non-negative duration formats to at least ten characters |
| StravaManager.SecondsToHmsHours | backend/app/strava_manager.py:367-374 | the hours field, everything before the last eight characters, is exactly `{:02}` of the whole hours, so from 10 hours on it carries no leading zero |
| StravaManager.HmsRoundTrip | backend/app/strava_manager.py:360-374 | the `HHhMMminSS` text parses back to the same number of seconds, however many hours there are: nothing is truncated |
| StravaManager.SecondsToH | backend/app/strava_manager.py:377-386 | the result is the whole number of hours: `h*3600 <= s < h*3600 + 3600` |
| StravaManager.SecondsToHAgrees | backend/app/strava_manager.py:384-386 | the whole-hours figure equals the hour part of the full decomposition |
| StravaManager.ToRow | backend/app/strava_manager.py:399-412 | a walk becomes a "Hike" row and every other type is kept, so a row is typed "Run" exactly when the activity is; the id, distance and local start time are kept, `distance_km * 1000` is the distance in metres, and for a non-negative moving time the formatted duration parses back to that number of seconds |
| StravaManager.ActivityTable | backend/app/strava_manager.py:389-415 | the table holds only rows typed "Run" and no more rows than activities |
| StravaManager.TableMembership | backend/app/strava_manager.py:401-415 | an activity's row is in the table exactly when Strava typed it "Run"; renaming walks loses no run |
| StravaManager.TableIsRunsOnly | backend/app/strava_manager.py:401-415 | filtering after the walk-to-hike renaming is the same as converting only the activities Strava typed "Run" |
| StravaManager.TableKm | backend/app/strava_manager.py:403 | the table's kilometre column sums to the metres run divided by 1000 |
| StravaManager.CheckChallengeCompletion | backend/app/strava_manager.py:309-333 | true exactly when the fetch succeeded and the metres run reach the target in kilometres times 1000; a failed fetch gives false |
| StravaManager.CompletionMonotone | backend/app/strava_manager.py:321-329 | more activities with non-negative distances (as Strava reports them) never turn a completed challenge into an incomplete one |
| StravaManager.MonthWindow | backend/app/strava_manager.py:274-281 | `datetime(year, month, 1)` raises ValueError exactly for a month outside 1..12 or a year outside 1..9999; a window starts on day 1 of that month at 00:00:00 |
| StravaManager.MonthWindowBounds | backend/app/strava_manager.py:274-281 | the window exists for every valid month except December 9999 (which overflows); it runs from day 1 at 00:00:00 to the month's last day at 23:59:59 |
| StravaManager.MonthWindowCovers | backend/app/strava_manager.py:274-281 | every instant of the month lies within its window |
| StravaManager.YearWindow | backend/app/strava_manager.py:247-256 | the window exists exactly for years 1..9999, and both ends are valid instants of that year |
| StravaManager.YearWindowCovers | backend/app/strava_manager.py:252-256 | every instant of the year lies within 1 January 00:00:00 .. 31 December 23:59:59 |
| Calendar.NextDay | backend/app/strava_manager.py:279 | the next day overflows exactly after 9999-12-31; otherwise it is a valid, later date |
| Calendar.PrevDay | backend/app/strava_manager.py:279-281 | the previous day fails exactly at 0001-01-01; otherwise the next day of the result is the input |
| Calendar.SubtractSecond | backend/app/strava_manager.py:281 | `- timedelta(seconds=1)` fails exactly at 0001-01-01 00:00:00; otherwise the result is a valid, earlier instant |
| Calendar.SubtractSecondExact | backend/app/strava_manager.py:281 | the result is exactly one second earlier on the time line (seconds counted from the ordinal), across midnight, month and year ends |
| Calendar.AddThirtyTwoDays | backend/app/strava_manager.py:279 | 32 days after the first of a month is day `33 - length` of the next month, and overflows only from December 9999 |
| Calendar.ThirtyTwoDaysLater | backend/app/strava_manager.py:279 | outside December 9999, 32 days after the first of a month is day `33 - length` of the following month |
| Calendar.AddDays | backend/app/routes/contests.py:33 | a shift of a valid date that does not overflow gives a valid date (when it overflows is stated by AddDaysNoneIff) |
| Calendar.AddDaysNoneIff | backend/app/routes/contests.py:33 | `date + timedelta(days=n)` overflows exactly when the shifted ordinal would pass that of 31 December 9999 |
| Calendar.AddDaysOrdinal | backend/app/routes/contests.py:33 | a shift by n days that does not overflow moves the ordinal forward by exactly n: `timedelta(days=n)` skips no day and counts none twice |
| Calendar.Ordinal | backend/app/routes/contests.py:138 | `toordinal` is positive and counts from 1 on 1 January of year 1 |
| Calendar.WeekdayOf | backend/app/routes/contests.py:138 | the weekday is Monday when the ordinal is 1 modulo 7 and Sunday when it is a multiple of 7, as in Python's proleptic calendar |
| Calendar.WeekdayWeeksLater | backend/app/routes/contests.py:138 | a date a whole number of weeks later falls on the same weekday |
| Calendar.NextDayWeekday | backend/app/routes/contests.py:138 | consecutive days have consecutive weekdays under `toordinal`, so the weekday name is the calendar's |
| Calendar.NewYear2024IsMonday | backend/app/routes/contests.py:138 | the weekday computation is anchored to the real calendar (1 January 2024 was a Monday) |
| Api.StatusCode | backend/app/routes/contests.py:13-14 | 401 exactly for "not authenticated", 404 exactly for "contest not found", 500 exactly for server-side failures, 400 otherwise |
| Contests.Create | backend/app/routes/contests.py:11-47 | covers the ordered guards: 401 without an athlete, then 400 for a missing or falsy type or distance, then 400 for a weekly schedule without days, then 500 for a missing title or stake or an end date past year 9999. Success happens exactly when none of these applies. The contest then gets id = store size + 1, the session athlete as creator and sole unpaid, unconnected participant with 0 days, the request's title, stake and schedule (type, distance, days, time), status "pending", a start at `now`, an end at the same time of day 30 days later, and is stored under its id |
| Contests.CreateAppends | backend/app/routes/contests.py:17-46 | in a store keyed 1..n, create appends under key n+1 and changes nothing else; the keys stay 1..n+1 and no progress is lost |
| Contests.WellFormedKeys | backend/app/routes/contests.py:17 | in a well-formed store, key `id` exists exactly when `1 <= id <= n`, at position `id - 1` |
| Contests.KeyIndex | backend/app/routes/contests.py:54-57 | `contest_id in contests` holds exactly when some stored contest has that id, and the lookup finds the first such position |
| Contests.ParticipantIndex | backend/app/routes/contests.py:100 | `next(p for p in participants if p['id'] == id)`: the position found holds that id and no earlier participant has it; none is found only when no participant has it |
| Contests.IsMemberIff | backend/app/routes/contests.py:59-60 | membership is exactly `any(p['id'] == id ...)`: some participant carries the athlete's id |
| Contests.NewParticipant | backend/app/routes/contests.py:63-70 | a new participant has the athlete's id, the name "first last", is unpaid and unconnected, with 0 completed days and no verification |
| Contests.Put | backend/app/routes/contests.py:46 | `contests[id] = contest` overwrites the contest stored under that id in place, or appends a new key at the end of the insertion order |
| Contests.Join | backend/app/routes/contests.py:49-73 | 401 without an athlete, 404 for an unknown id, 400 for a member; it succeeds exactly when the athlete is signed in, the contest exists and the athlete is not yet a member, and then exactly one new participant is appended to that contest and the other contests are untouched |
| Contests.JoinPreserves | backend/app/routes/contests.py:63-72 | joining keeps keys 1..n, the creator first and participant ids distinct, and loses no progress |
| Contests.JoinTwiceRefused | backend/app/routes/contests.py:59-61 | a second join by the same athlete is refused with "already joined" |
| Contests.List | backend/app/routes/contests.py:75-86 | 401 exactly without an athlete; every "participating" contest lists the athlete and no "available" one does |
| Contests.ListPartition | backend/app/routes/contests.py:80-84 | every contest lands in exactly one list, on the side membership decides, and the two together are a permutation of the store; in a well-formed store (keys 1..n in order) both lists are in ascending id order |
| Contests.Verify | backend/app/routes/contests.py:88-140 | the refusals in the route's order: 401 without an athlete, 404 for an unknown contest, then for the first participant with the athlete's id: not participating, Strava not connected, already verified today, 500 when building the client or fetching the activities raised, no valid run, 500 for a weekly contest without days, and "not a scheduled day" naming today's lower-case weekday |
| Contests.VerifyOkIff | backend/app/routes/contests.py:96-140 | a run is credited exactly when every refusal of the route is passed and the list of valid runs is non-empty |
| Contests.VerifySucceedsIff | backend/app/routes/contests.py:96-140 | a run is credited exactly when all hold: athlete signed in; contest exists; athlete takes part; Strava connected; not yet verified today; the activity fetch succeeded; some activity typed "Run" is at least the target km times 1000; for a weekly schedule, today's lower-case weekday is a listed day |
| Contests.QualifyingRuns | backend/app/routes/contests.py:119-125 | the valid runs are a selection of the table rows, each typed "Run" with a distance of at least the target km times 1000 |
| Contests.VerifiedOnDay | backend/app/routes/contests.py:108-110 | a participant never verified is not verified today; otherwise it is exactly when the calendar date of its last verification is today's, whatever the time of day |
| Contests.QualifyingRunsNonEmpty | backend/app/routes/contests.py:119-127 | the run table has a qualifying row exactly when Strava lists a long-enough activity typed "Run" |
| Contests.VerifyUpdate | backend/app/routes/contests.py:142-152 | on success exactly the verifying participant changes: completed days + 1, last verified = now; every other participant and contest is unchanged. The reply's verified run is the first valid run: its distance / 1000 and its local start time |
| Contests.VerifyPreserves | backend/app/routes/contests.py:142-144 | verification keeps the store well formed and completed days never decrease |
| Contests.ReplaceParticipantKeeps | backend/app/routes/contests.py:142-144 | writing back a participant with the same id and no fewer completed days keeps the store well formed and loses no progress |
| Contests.VerifyOncePerDay | backend/app/routes/contests.py:108-111 | after a credited run, the same athlete's next verification in the same contest on the same calendar day, against the store that run produced, is refused with "already verified today" |
| Auth.SplitJoin | backend/app/routes/auth.py:10 | joining `&`-free pieces with `&` and cutting at `&` gives the pieces back |
| Auth.AuthorizeUrl | backend/app/routes/auth.py:8-11 | for a client id and redirect URI without `&`, the URL is the Strava authorize endpoint with exactly the parameters `client_id`, `response_type=code`, `redirect_uri` and `scope=activity:read_all,profile:read_all`, in that order, carrying the configured values |
| Auth.ConnectStrava | backend/app/routes/auth.py:42-51 | the store keeps its size, and an unknown contest leaves it unchanged |
| Auth.ConnectStravaOnlyFlag | backend/app/routes/auth.py:42-51 | only the first participant with the athlete's id in the pending contest changes, and only its Strava flag, which becomes true; an absent contest or participant changes nothing |
| Auth.Callback | backend/app/routes/auth.py:13-58 | a missing or empty code gives 400 before anything changes; a failed exchange or a reply without an athlete gives 500. It succeeds exactly when the code is non-empty and the exchange returned an athlete. On success the session athlete is exactly id, first name, last name and profile from the token response, the pending contest id is gone, the store is updated through the Strava link and the reply is the token response |
| Auth.CallbackPreserves | backend/app/routes/auth.py:41-52 | the callback keeps the store well formed and loses no progress |
| Auth.Refresh | backend/app/routes/auth.py:60-73 | the route as evidently intended: a missing or empty refresh token gives 400; otherwise the reply is Strava's token response, or 500 when the refresh fails |
| Auth.RefreshAsWritten | backend/app/routes/auth.py:60-73 | the route as written: a missing or empty refresh token gives 400, and every other token gives 500, because the manager has no `refresh_token` method |
| Auth.RefreshAsWrittenRefusesValidToken | backend/app/routes/auth.py:67-73 | on a non-empty token that Strava would refresh, the intended route returns the token response while the written route answers 500; on the guard both agree |
| ContractService.EncodeGoal | frontend/src/services/contract.ts:36-41 | the goal object has exactly the keys title, scheduleType, scheduleDays and targetDistance, in that order |
| ContractService.GoalRoundTrip | frontend/src/services/contract.ts:36-41 | reading the four fields back, with their types, from the encoded goal gives the goal that was written |
| ContractService.EncodeGoalFields | frontend/src/services/contract.ts:156-166 | each of the four keys of the encoded goal reads back its own value |
| ContractService.CreateChallenge | frontend/src/services/contract.ts:23-53 | the transaction's goal decodes to the given title, schedule type, days and distance with exactly those four keys; duration and stake pass through and the gas limit is 500000 |
| ContractService.Property | frontend/src/services/contract.ts:156-166 | a property read throws exactly on `null`, and yields a value only on an object |
| ContractService.ReadGoal | frontend/src/services/contract.ts:156-166 | a goal read succeeds with title and schedule type that are the string fields of those names, days that are the strings of the `scheduleDays` array and a distance that is the `targetDistance` number |
| ContractService.ReadCompetition | frontend/src/services/contract.ts:153 | the node's reply for that id, errors included; an id the node has no reply for is a failed call |
| ContractService.GetChallengeCount | frontend/src/services/contract.ts:138-148 | on success the count is the node's `competitionCount` reply; a failed read is rethrown with its error unchanged |
| ContractService.Lookup | frontend/src/services/contract.ts:156 | a found value belongs to a member with that key and no later member has it, as `JSON.parse` keeps the last duplicate; "not found" means no member has the key |
| ContractService.GetChallengeDetails | frontend/src/services/contract.ts:150-173 | read errors are rethrown unchanged; unparseable goal text gives a syntax error and a `null` goal a type error. On success endDate = deadline × 1000 ms and startDate = endDate − 604800000 < endDate; creator, prize pool (as stake), ended and participants pass through; the goal fields are the parsed goal's |
| ContractService.DetailsRoundTrip | frontend/src/services/contract.ts:150-173 | a competition created with an encoded goal reads back with that goal's title, schedule type, days and distance |
| ContractService.IsParticipant | frontend/src/services/contract.ts:175-186 | true for every address exactly when the competition read succeeds; a read error is rethrown |
| ContractService.IsStravaConnected | frontend/src/services/contract.ts:199-203 | always true |
| Dashboard.DisplayName | frontend/src/app/dashboard/page.tsx:88 | a non-empty name is kept; otherwise the address's first six and last four characters are joined by "...", clamped to shorter addresses like JavaScript's `slice` |
| Dashboard.ToView | frontend/src/app/dashboard/page.tsx:76-94 | the entry carries the id, status "ended" exactly when the challenge has ended, the stake converted from wei to ether, the goal fields with time "", and one participant view per chain participant, in order, each the `ToParticipant` view of it (so with its address) |
| Dashboard.ToParticipant | frontend/src/app/dashboard/page.tsx:86-92 | a participant view keeps id, address, completed days and Strava flag, is marked paid, and shows the display name |
| Dashboard.FetchReads | frontend/src/app/dashboard/page.tsx:75-94 | one read succeeds exactly when the challenge's details read does, giving that challenge's entry; a failed read passes its error on |
| Dashboard.AllFetched | frontend/src/app/dashboard/page.tsx:71-96 | a successful fetch holds exactly one entry per id 1..count |
| Dashboard.AllFetchedOkIff | frontend/src/app/dashboard/page.tsx:74-96 | the fetch succeeds exactly when every read for ids 1..count succeeds |
| Dashboard.AllFetchedEntries | frontend/src/app/dashboard/page.tsx:74-94 | on success, entry i is built from the details of challenge i+1, in ascending order |
| Dashboard.AllFetchedFirstError | frontend/src/app/dashboard/page.tsx:74-108 | on failure, the error is that of the first failing id, as the loop stops at the first exception |
| Dashboard.AllFetchedIds | frontend/src/app/dashboard/page.tsx:74-77 | the fetched entries carry ids 1..count in ascending order |
| Dashboard.AllFetchedStep | frontend/src/app/dashboard/page.tsx:74-96 | one more successful read appends exactly that challenge's entry to the fetched list |
| Dashboard.AllFetchedFails | frontend/src/app/dashboard/page.tsx:71-96 | one failed read of an id up to the count fails the whole fetch |
| Dashboard.SplitByMembership | frontend/src/app/dashboard/page.tsx:97-103 | "participating" and "available" are a permutation of all entries, split exactly by whether some participant has the signer's address |
| Dashboard.SplitKeepsOrder | frontend/src/app/dashboard/page.tsx:97-103 | both lists keep the ascending id order |
| Dashboard.LoadContests | frontend/src/app/dashboard/page.tsx:66-109 | no contract service: nothing changes. A failed count read or any failed challenge read leaves the previous lists. Otherwise the lists are the membership split of the entries for ids 1..count, and empty for count 0 |
| Dashboard.ScheduleDays | frontend/src/app/dashboard/page.tsx:120-122 | a daily schedule sends all seven weekday names, Monday to Sunday, any other sends the chosen days unchanged |
| Dashboard.CreatedId | frontend/src/app/dashboard/page.tsx:137-142 | a created id is the argument of the first `ChallengeCreated` event, with no such event before it; none is found only when there is no such event or the first one carries no id |
| Dashboard.HandleCreate | frontend/src/app/dashboard/page.tsx:111-162 | without a service nothing is sent or changed. Otherwise the goal sent decodes to the draft's title, type, normalised days and distance, with duration 30 and the draft's stake. Failure leaves the page unchanged; success resets the draft to daily, seven days, 3 km, stake 0, empty title and time, shows the Strava prompt and records the created id when the receipt has one |
| CreateChallenge.ToggledDays | frontend/src/components/create-challenge/DetailsStep.tsx:121-125 | clicking a day flips whether its name is listed (append when absent, remove every copy when present) and leaves other names alone |
| CreateChallenge.ToggledDaysKeepsNames | frontend/src/components/create-challenge/DetailsStep.tsx:121-125 | a toggle keeps a duplicate-free list of day names duplicate-free |
| CreateChallenge.InitialConsistent | frontend/src/components/create-challenge/CreateChallengeModal.tsx:22-34 | the modal opens at "connect" with activity "free" and a daily, all-seven-days, 3 km, 0.1 stake draft, and that state satisfies the invariant |
| CreateChallenge.Step | frontend/src/components/create-challenge/CreateChallengeModal.tsx:38-81 | closing leaves the state as it is; the draft is handed over exactly on submit in the details step when the form's constraints accept it, and then unchanged |
| CreateChallenge.StepFollowsEdges | frontend/src/components/create-challenge/CreateChallengeModal.tsx:48-81 | every event keeps the step or moves along connect→type, type→details or details→type |
| CreateChallenge.NeverBackToConnect | frontend/src/components/create-challenge/CreateChallengeModal.tsx:52-77 | no event leads back to "connect" |
| CreateChallenge.LeaveConnectIff | frontend/src/components/create-challenge/ConnectionStep.tsx:21-25 | "connect" is left exactly when both Strava and the wallet are connected, and only for "type" |
| CreateChallenge.PickActivity | frontend/src/components/create-challenge/ActivityTypeStep.tsx:33-58 | "free" is always selectable; "run" is selected with Strava, and without it only the Strava connection starts |
| CreateChallenge.ActivityChangeOnlyActivity | frontend/src/components/create-challenge/CreateChallengeModal.tsx:60-65 | an activity change sets the modal's and the draft's activity to the same value and changes nothing else |
| CreateChallenge.EditsTouchOnlyTheirField | frontend/src/components/create-challenge/DetailsStep.tsx:38-150 | title, distance, Daily/Weekly and stake edits each replace only their own field; the type buttons leave the day list alone |
| CreateChallenge.ToggleDayFlips | frontend/src/components/create-challenge/DetailsStep.tsx:113-137 | on a weekly schedule a day click flips only that day's membership and nothing else in the modal |
| CreateChallenge.SubmitHandsOverDraft | frontend/src/components/create-challenge/CreateChallengeModal.tsx:38-41 | submit hands over the current draft unchanged, exactly when the form's constraints accept it, and the modal state stays |
| CreateChallenge.StepConsistent | frontend/src/components/create-challenge/CreateChallengeModal.tsx:48-81 | every event preserves the invariant: both activity copies agree, only "free" or "run" occur, and the days are distinct weekday names |
| CreateChallenge.ReachableConsistent | frontend/src/components/create-challenge/CreateChallengeModal.tsx:22-81 | every state reachable from the initial one satisfies the invariant |

## Findings

| source | as written | input that shows it | evidently intended | confidence | as-written member | corrected member |
|---|---|---|---|---|---|---|
| backend/app/routes/auth.py:69 | `strava_refresh` calls `client.refresh_token(...)`, but `StravaManager` defines no such method (strava_manager.py:61 only sets an attribute on the Strava client), so the call raises and the route answers 500 | any non-empty `refresh_token`, e.g. "abc" | refresh the token with Strava and return the token response | not executed | Auth.RefreshAsWritten, Auth.RefreshAsWrittenRefusesValidToken | Auth.Refresh |

## Left out

- Flask plumbing is left out because it is not logic of the routes: request parsing, CORS, config loading and JSON replies. The session athlete and pending contest id are explicit values, and replies are `Api.ApiError` tags with their status.
- Network calls are parameters, because they are I/O:
  - Strava's token exchange and refresh: `Auth.Callback` and `Auth.Refresh` receive the response, or `None` when the call raised.
  - The activity listing: `Contests.Verify` receives today's activities, or `None` when building the client or fetching raised. The route builds `StravaManager()` from the session's `access_token`, which no modelled route stores (backend/app/strava_manager.py:89-90; the callback in backend/app/routes/auth.py:33-39 stores only the athlete), so as written that call raises and the route answers 500.
  - The chain: `ContractService.Node` is the replies of `competitionCount` and `competitions(id)`.
- JSON text is left out. The model keeps the value `JSON.parse` builds, and `None` for text it rejects, so the goal round trip is stated between `EncodeGoal` and the typed reader `ReadGoal`.
- ContractService.GetChallengeCount: `Number()` of a count beyond 2^53 loses precision in the source; the model keeps counts as exact naturals.
- ContractService.GetChallengeDetails: `Number()` of a deadline beyond 2^53 loses precision in the source; the model computes the dates from the exact deadline.
- `parseEther`/`formatEther` are left out: the stake is kept in ether as a `real`, and the wei prize pool becomes ether by exact division by 10^18.
- Gas and `tx.wait` are left out, and the transaction outcome is a parameter. `joinChallenge`, `validateResults` and `getCompletedDays` are not among the modelled operations.
- Python details are left out:
  - microseconds;
  - ISO-8601 string rendering of dates;
  - the `day_of_week`/`month_of_year`/`year` table columns, which nothing modelled reads.
- Contests.Create: the source calls `datetime.now()` twice, for the start and the end. The model uses one instant for both.
- Contests.Create: a missing `title` or `stake_amount`, or an end date past year 9999, is the uncaught error Flask answers with 500 (`ServerError`). A body that is not a JSON object is not modelled.
- Contests.Verify: the source iterates the activity data frame as if it were a list of dictionaries. The model uses the evident intent: the rows of the run table, with their type and distance in metres.
- Auth.Callback, Contests.Verify: nothing in the source ever stores `pending_contest_id` in the session. The login route (backend/app/routes/auth.py:8-11) ignores the `contest_id` the frontend sends (frontend/src/lib/api.ts:9-13), and the callback only reads and pops the key (auth.py:42-52). So as written no participant becomes Strava-connected, and `verify_run` always stops at "Strava not connected" (contests.py:105-106). The model takes the session, pending id included, as a parameter of the callback, so the success path of `Contests.Verify` is stated for the evidently intended flow.
- Contests.Verify: a weekly contest stored without `days` raises a `KeyError` in the source. It is modelled as `ServerError`.
- Contests.Verify: the source calls `datetime.now()` twice, for today's date and for the new `last_verified` (contests.py:109, :144). The model uses one instant for both, so a verification running across midnight is not modelled.
- ContractService.GetChallengeDetails: the source's details object has no `participants` (contract.ts:158-168), although the dashboard reads them. The model passes each competition's participants through, as the dashboard evidently expects.
- Dashboard.ToParticipant, Dashboard.ToView: the source's participant view (page.tsx:86-92) has no `address` field, so `p.address` at page.tsx:99 and :102 is undefined and membership is always false. The model keeps each participant's address in its view, following the evident intent.
- Dashboard.LoadContests: the source compares against an un-awaited `signer.getAddress()`. The model takes the evident intent: membership is "some participant's address equals the signer's address `me`".
- Dashboard.LoadContests: ended challenges stay in the split with status "ended"; the code filters on membership alone, and so does the model.
- StravaManager.CheckChallengeCompletion: a failed fetch is caught and returns false, the same answer as an incomplete challenge; the model does the same.
- Dashboard.HandleCreate: the source calls `wait()` again on what `createChallenge` already awaited. The model takes the evident intent: the confirmed receipt is the outcome.
- CreateChallenge: rendering and styling are left out. So are the title placeholder, the timezone list and the ride/swim buttons, which are commented out in the source. The browser's constraint validation of the details form is modelled as `Submittable`: a `required` title, plus the `min`/`step` of the distance and stake inputs. Parsing the number inputs (`Number("")` is 0, text gives NaN) is left out; edits carry the parsed number.
- Floating point is left out, as are the pace/heart-rate zones, moving averages, progress bars, the popup OAuth flow, wallet providers and the single in-flight token refresh. These are numerics, UI or concurrency outside the modelled operations.

=== FILE: api.dfy ===
/** What the backend's routes share: the athlete kept in the session and
    the error replies, each tagged with its HTTP status. */
module Api {

  /** The athlete record the session holds after a Strava login. */
  datatype Athlete = Athlete(id: int, firstname: string, lastname: string, profile: string)

  /** The error replies of the contest and auth routes. `ServerError`
      stands for an exception Flask turns into a 500 (a missing request
      field, a date out of range). */
  datatype ApiError =
    | NotAuthenticated
    | InvalidSchedule
    | WeeklyWithoutDays
    | ContestNotFound
    | AlreadyJoined
    | NotParticipating
    | StravaNotConnected
    | AlreadyVerifiedToday
    | NoValidRun
    | NotScheduledDay(today: string)
    | ServerError
    | NoAuthorizationCode
    | TokenExchangeFailed
    | NoRefreshToken
    | TokenRefreshFailed

  /** The HTTP status each error reply carries. */
  function StatusCode(e: ApiError): (code: int)
    ensures code == 401 <==> e.NotAuthenticated?
    ensures code == 404 <==> e.ContestNotFound?
    ensures code == 500 <==> e.ServerError? || e.TokenExchangeFailed? || e.TokenRefreshFailed?
    ensures code in {400, 401, 404, 500}
  {
    match e
    case NotAuthenticated => 401
    case ContestNotFound => 404
    case ServerError => 500
    case TokenExchangeFailed => 500
    case TokenRefreshFailed => 500
    case _ => 400
  }
}

=== FILE: auth.dfy ===
/** The backend's Strava auth routes: the authorize URL, the OAuth
    callback that fills the session and marks a pending contest's
    participant as connected, and the refresh guard. The token exchange
    with Strava is replaced by its outcome. */
module Auth {
  import opened Wrappers
  import opened Api
  import Contests

  /** The server-side session: the signed-in athlete and the contest
      whose Strava link is pending. */
  datatype Session = Session(athlete: Option<Athlete>, pendingContestId: Option<int>)

  /** The athlete object of Strava's token response: the four fields the
      session keeps and whatever else Strava sends. */
  datatype StravaAthlete = StravaAthlete(id: int, firstname: string, lastname: string, profile: string,
                                         otherFields: seq<(string, string)>)

  /** Strava's token response; `athlete` is `None` when the key is absent. */
  datatype TokenResponse = TokenResponse(athlete: Option<StravaAthlete>, accessToken: string,
                                         refreshToken: string, expiresAt: int)

  datatype CallbackReply = CallbackReply(session: Session, store: Contests.Store, body: TokenResponse)

  const AuthorizeEndpoint: string := "https://www.strava.com/oauth/authorize"
  const Scope: string := "activity:read_all,profile:read_all"

  // ---------------------------------------------------------------------
  // Authorize URL

  /** `s` cut at every `sep`. */
  function Split(s: string, sep: char): (parts: seq<string>)
    ensures |parts| >= 1
  {
    if |s| == 0 then [""]
    else
      var rest := Split(s[1..], sep);
      if s[0] == sep then [""] + rest
      else [[s[0]] + rest[0]] + rest[1..]
  }

  /** A piece without the separator splits off whole, in front of
      whatever follows the separator. */
  lemma {:induction false} SplitPrefix(a: string, b: string, sep: char)
    requires sep !in a
    ensures Split(a + [sep] + b, sep) == [a] + Split(b, sep)
  {
    if |a| > 0 {
      assert (a + [sep] + b)[1..] == a[1..] + [sep] + b;
      SplitPrefix(a[1..], b, sep);
      assert [a[0]] + a[1..] == a;
    } else {
      assert a + [sep] + b == [sep] + b;
    }
  }

  /** A string without the separator is its own single piece. */
  lemma {:induction false} SplitWhole(a: string, sep: char)
    requires sep !in a
    ensures Split(a, sep) == [a]
  {
    if |a| > 0 {
      SplitWhole(a[1..], sep);
      assert [a[0]] + a[1..] == a;
    }
  }

  /** The pieces glued back together with `sep` between neighbours. */
  function Join(parts: seq<string>, sep: char): string
    requires |parts| >= 1
  {
    if |parts| == 1 then parts[0] else parts[0] + [sep] + Join(parts[1..], sep)
  }

  /** Joining pieces that are free of the separator and cutting the result
      at the separator gives the pieces back. */
  lemma {:induction false} SplitJoin(parts: seq<string>, sep: char)
    requires |parts| >= 1
    requires forall i :: 0 <= i < |parts| ==> sep !in parts[i]
    ensures Split(Join(parts, sep), sep) == parts
  {
    if |parts| == 1 {
      SplitWhole(parts[0], sep);
    } else {
      SplitJoin(parts[1..], sep);
      SplitPrefix(parts[0], Join(parts[1..], sep), sep);
      assert [parts[0]] + parts[1..] == parts;
    }
  }

  /** `strava_auth`: the authorize URL for the configured client and
      redirect URI, its four query parameters in the order the route
      writes them. The values are not URL-escaped. */
  function AuthorizeUrl(clientId: string, redirectUri: string): (url: string)
    ensures '&' !in clientId && '&' !in redirectUri ==>
      QueryParameters(url) ==
        Some(["client_id=" + clientId, "response_type=code", "redirect_uri=" + redirectUri, "scope=" + Scope])
  {
    var parts := ["client_id=" + clientId, "response_type=code", "redirect_uri=" + redirectUri, "scope=" + Scope];
    var prefix := AuthorizeEndpoint + "?";
    var url := prefix + Join(parts, '&');
    PrefixAndRest(prefix, Join(parts, '&'));
    if '&' !in clientId && '&' !in redirectUri then
      ParametersAmpersandFree(clientId, redirectUri);
      SplitJoin(parts, '&');
      url
    else url
  }

  /** With `&`-free configured values, no parameter holds an `&`. */
  lemma ParametersAmpersandFree(clientId: string, redirectUri: string)
    requires '&' !in clientId && '&' !in redirectUri
    ensures var parts := ["client_id=" + clientId, "response_type=code", "redirect_uri=" + redirectUri, "scope=" + Scope];
      forall i :: 0 <= i < |parts| ==> '&' !in parts[i]
  {
    var parts := ["client_id=" + clientId, "response_type=code", "redirect_uri=" + redirectUri, "scope=" + Scope];
    assert '&' !in parts[0] && '&' !in parts[1] && '&' !in parts[2] && '&' !in parts[3];
  }

  /** A concatenation cut at the length of its first part. */
  lemma PrefixAndRest(prefix: string, rest: string)
    ensures (prefix + rest)[..|prefix|] == prefix && (prefix + rest)[|prefix|..] == rest
  {
  }

  /** The `key=value` parameters of a URL on the authorize endpoint. */
  function QueryParameters(url: string): Option<seq<string>> {
    var prefix := AuthorizeEndpoint + "?";
    if |prefix| <= |url| && url[..|prefix|] == prefix then Some(Split(url[|prefix|..], '&'))
    else None
  }

  // ---------------------------------------------------------------------
  // Callback

  /** Marks the first participant with the athlete's id as connected to
      Strava in the contest with that key, if both exist. */
  function ConnectStrava(store: Contests.Store, contestId: int, athleteId: int): (r: Contests.Store)
    ensures |r| == |store|
    ensures Contests.KeyIndex(store, contestId).None? ==> r == store
  {
    match Contests.KeyIndex(store, contestId)
    case None => store
    case Some(k) =>
      var c := store[k];
      match Contests.ParticipantIndex(c.participants, athleteId)
      case None => store
      case Some(j) =>
        store[k := c.(participants := c.participants[j := c.participants[j].(stravaConnected := true)])]
  }

  /** Only the matching participant of the matching contest changes, and
      only its Strava flag, which becomes true; with no such contest or
      participant nothing changes. */
  lemma ConnectStravaOnlyFlag(store: Contests.Store, contestId: int, athleteId: int)
    ensures
      var r := ConnectStrava(store, contestId, athleteId);
      forall i :: 0 <= i < |store| ==>
        && r[i].(participants := store[i].participants) == store[i]
        && |r[i].participants| == |store[i].participants|
        && forall j :: 0 <= j < |store[i].participants| ==>
             r[i].participants[j].(stravaConnected := store[i].participants[j].stravaConnected)
               == store[i].participants[j]
             && (r[i].participants[j] != store[i].participants[j] <==>
                   && Contests.KeyIndex(store, contestId) == Some(i)
                   && Contests.ParticipantIndex(store[i].participants, athleteId) == Some(j)
                   && !store[i].participants[j].stravaConnected)
             && (r[i].participants[j] != store[i].participants[j] ==> r[i].participants[j].stravaConnected)
  {
  }

  /** `strava_callback`. `code` is the request's authorization code and
      `exchange` the token endpoint's reply, `None` when the exchange
      raised. */
  function Callback(session: Session, store: Contests.Store, code: Option<string>,
                    exchange: Option<TokenResponse>): (r: Result<CallbackReply, ApiError>)
    ensures (code.None? || code.value == "") ==> r == Err(NoAuthorizationCode)
    ensures code.Some? && code.value != "" && (exchange.None? || exchange.value.athlete.None?)
            ==> r == Err(TokenExchangeFailed)
    ensures r.Ok? <==> code.Some? && code.value != "" && exchange.Some? && exchange.value.athlete.Some?
    ensures r.Ok? ==> r.value.body == exchange.value
    ensures r.Ok? ==>
      var a := exchange.value.athlete.value;
      && r.value.session.athlete == Some(Athlete(a.id, a.firstname, a.lastname, a.profile))
      && r.value.session.pendingContestId.None?
      && r.value.store == (if session.pendingContestId.Some?
                           then ConnectStrava(store, session.pendingContestId.value, a.id)
                           else store)
  {
    if code.None? || code.value == "" then Err(NoAuthorizationCode)
    else match exchange
      case None => Err(TokenExchangeFailed)
      case Some(tokens) =>
        match tokens.athlete
        case None => Err(TokenExchangeFailed)
        case Some(a) =>
          var session' := session.(athlete := Some(Athlete(a.id, a.firstname, a.lastname, a.profile)));
          match session'.pendingContestId
          case None => Ok(CallbackReply(session', store, tokens))
          case Some(contestId) =>
            Ok(CallbackReply(session'.(pendingContestId := None), ConnectStrava(store, contestId, a.id), tokens))
  }

  /** A callback keeps the store well formed and loses no progress. */
  lemma CallbackPreserves(session: Session, store: Contests.Store, code: Option<string>,
                          exchange: Option<TokenResponse>)
    requires Contests.WellFormed(store)
    requires Callback(session, store, code, exchange).Ok?
    ensures Contests.WellFormed(Callback(session, store, code, exchange).value.store)
    ensures Contests.ProgressKept(store, Callback(session, store, code, exchange).value.store)
  {
    if session.pendingContestId.Some? {
      ConnectStravaOnlyFlag(store, session.pendingContestId.value, exchange.value.athlete.value.id);
    }
  }

  /** `strava_refresh` as written: past the guard it calls a
      `refresh_token` method that the Strava manager does not define, and
      the resulting error is answered as a failed refresh. */
  function RefreshAsWritten(refreshToken: Option<string>): (r: Result<TokenResponse, ApiError>)
    ensures (refreshToken.None? || refreshToken.value == "") <==> r == Err(NoRefreshToken)
    ensures r.Err?
    ensures refreshToken.Some? && refreshToken.value != "" ==> r == Err(TokenRefreshFailed)
  {
    if refreshToken.None? || refreshToken.value == "" then Err(NoRefreshToken)
    else Err(TokenRefreshFailed)
  }

  /** `strava_refresh` as intended: a missing or empty `refresh_token`
      argument is refused before Strava is asked; otherwise the reply is
      Strava's token response, or a failed refresh when the call raised. */
  function Refresh(refreshToken: Option<string>, exchange: Option<TokenResponse>): (r: Result<TokenResponse, ApiError>)
    ensures (refreshToken.None? || refreshToken.value == "") <==> r == Err(NoRefreshToken)
    ensures r.Ok? <==> refreshToken.Some? && refreshToken.value != "" && exchange.Some?
    ensures r.Ok? ==> r.value == exchange.value
  {
    if refreshToken.None? || refreshToken.value == "" then Err(NoRefreshToken)
    else match exchange
      case None => Err(TokenRefreshFailed)
      case Some(tokens) => Ok(tokens)
  }

  /** The two agree on the guard, but a refresh token that Strava accepts
      is still refused by the route as written. */
  lemma RefreshAsWrittenRefusesValidToken(refreshToken: Option<string>, exchange: Option<TokenResponse>)
    ensures (refreshToken.None? || refreshToken.value == "") ==>
      RefreshAsWritten(refreshToken) == Refresh(refreshToken, exchange) == Err(NoRefreshToken)
    ensures refreshToken.Some? && refreshToken.value != "" && exchange.Some? ==>
      && Refresh(refreshToken, exchange) == Ok(exchange.value)
      && RefreshAsWritten(refreshToken) == Err(TokenRefreshFailed)
  {
  }
}

=== FILE: calendar.dfy ===
/** The slice of Python's `datetime` that the backend relies on: the
    proleptic Gregorian calendar restricted to years 1 through 9999,
    day shifts that raise on leaving that range, the one-second step
    back across midnight, and weekday names. Microseconds are not
    modelled. */
module Calendar {
  import opened Wrappers

  const MinYear: int := 1
  const MaxYear: int := 9999

  datatype Weekday = Monday | Tuesday | Wednesday | Thursday | Friday | Saturday | Sunday {

    /** The lower-case English name, as `strftime('%A').lower()` gives it. */
    function Name(): string {
      match this
      case Monday => "monday"
      case Tuesday => "tuesday"
      case Wednesday => "wednesday"
      case Thursday => "thursday"
      case Friday => "friday"
      case Saturday => "saturday"
      case Sunday => "sunday"
    }

    /** The weekday that follows this one. */
    function Next(): Weekday {
      match this
      case Monday => Tuesday
      case Tuesday => Wednesday
      case Wednesday => Thursday
      case Thursday => Friday
      case Friday => Saturday
      case Saturday => Sunday
      case Sunday => Monday
    }
  }

  /** The week in the order the forms list it, Monday first. */
  const Week: seq<Weekday> := [Monday, Tuesday, Wednesday, Thursday, Friday, Saturday, Sunday]

  /** The seven lower-case day names, Monday first: the "all days" list. */
  function AllDayNames(): (names: seq<string>)
    ensures |names| == 7
    ensures forall d: Weekday :: d.Name() in names
  {
    ["monday", "tuesday", "wednesday", "thursday", "friday", "saturday", "sunday"]
  }

  predicate IsLeap(y: int) {
    y % 4 == 0 && (y % 100 != 0 || y % 400 == 0)
  }

  function DaysInMonth(y: int, m: int): (n: int)
    requires 1 <= m <= 12
    ensures 28 <= n <= 31
    ensures m == 2 ==> (n == 29 <==> IsLeap(y))
  {
    if m == 2 then (if IsLeap(y) then 29 else 28)
    else if m == 4 || m == 6 || m == 9 || m == 11 then 30
    else 31
  }

  datatype Date = Date(year: int, month: int, day: int)

  /** A date `datetime.date` accepts. */
  predicate ValidDate(d: Date) {
    && MinYear <= d.year <= MaxYear
    && 1 <= d.month <= 12
    && 1 <= d.day <= DaysInMonth(d.year, d.month)
  }

  datatype DateTime = DateTime(date: Date, hour: int, minute: int, second: int)

  /** A time `datetime.datetime` accepts (to the second). */
  predicate ValidDateTime(t: DateTime) {
    ValidDate(t.date) && 0 <= t.hour < 24 && 0 <= t.minute < 60 && 0 <= t.second < 60
  }

  /** Chronological order on dates. */
  predicate DateBefore(a: Date, b: Date) {
    || a.year < b.year
    || (a.year == b.year && a.month < b.month)
    || (a.year == b.year && a.month == b.month && a.day < b.day)
  }

  /** Chronological (non-strict) order on date-times. */
  predicate NoLater(a: DateTime, b: DateTime) {
    || DateBefore(a.date, b.date)
    || (a.date == b.date &&
        (|| a.hour < b.hour
         || (a.hour == b.hour && a.minute < b.minute)
         || (a.hour == b.hour && a.minute == b.minute && a.second <= b.second)))
  }

  /** The day after `d`, or `None` where Python raises OverflowError
      (after 31 December 9999). */
  function NextDay(d: Date): (r: Option<Date>)
    requires ValidDate(d)
    ensures r.None? <==> d == Date(MaxYear, 12, 31)
    ensures r.Some? ==> ValidDate(r.value) && DateBefore(d, r.value)
  {
    if d.day < DaysInMonth(d.year, d.month) then Some(Date(d.year, d.month, d.day + 1))
    else if d.month < 12 then Some(Date(d.year, d.month + 1, 1))
    else if d.year < MaxYear then Some(Date(d.year + 1, 1, 1))
    else None
  }

  /** The day before `d`, or `None` before 1 January of year 1. */
  function PrevDay(d: Date): (r: Option<Date>)
    requires ValidDate(d)
    ensures r.None? <==> d == Date(MinYear, 1, 1)
    ensures r.Some? ==> ValidDate(r.value) && NextDay(r.value) == Some(d)
  {
    if d.day > 1 then Some(Date(d.year, d.month, d.day - 1))
    else if d.month > 1 then Some(Date(d.year, d.month - 1, DaysInMonth(d.year, d.month - 1)))
    else if d.year > MinYear then Some(Date(d.year - 1, 12, 31))
    else None
  }

  /** `d + timedelta(days=n)`: `None` when the result leaves the
      representable range. */
  function AddDays(d: Date, n: nat): (r: Option<Date>)
    requires ValidDate(d)
    ensures r.Some? ==> ValidDate(r.value)
    decreases n
  {
    if n == 0 then Some(d)
    else match NextDay(d)
      case None => None
      case Some(d') => AddDays(d', n - 1)
  }

  /** `t - timedelta(seconds=1)`. */
  function SubtractSecond(t: DateTime): (r: Option<DateTime>)
    requires ValidDateTime(t)
    ensures r.Some? ==> ValidDateTime(r.value) && NoLater(r.value, t) && r.value != t
    ensures r.None? <==> t == DateTime(Date(MinYear, 1, 1), 0, 0, 0)
  {
    if t.second > 0 then Some(t.(second := t.second - 1))
    else if t.minute > 0 then Some(t.(minute := t.minute - 1, second := 59))
    else if t.hour > 0 then Some(t.(hour := t.hour - 1, minute := 59, second := 59))
    else match PrevDay(t.date)
      case None => None
      case Some(p) => Some(DateTime(p, 23, 59, 59))
  }

  /** Days from 1 January of year 1 to 1 January of year `y`. */
  function DaysBeforeYear(y: int): int
    requires y >= 1
  {
    var k := y - 1;
    k * 365 + k / 4 - k / 100 + k / 400
  }

  /** Days from 1 January to the first of month `m` of year `y`. */
  function DaysBeforeMonth(y: int, m: int): int
    requires 1 <= m <= 12
  {
    [0, 31, 59, 90, 120, 151, 181, 212, 243, 273, 304, 334][m - 1]
      + (if m > 2 && IsLeap(y) then 1 else 0)
  }

  /** `date.toordinal()`: 1 January of year 1 has ordinal 1. */
  function Ordinal(d: Date): (r: int)
    requires ValidDate(d)
    ensures r >= 1
    ensures d.year == MinYear && d.month == 1 ==> r == d.day
  {
    DaysBeforeYear(d.year) + DaysBeforeMonth(d.year, d.month) + d.day
  }

  /** `date.weekday()`, as the day it names: ordinal 1 was a Monday. */
  function WeekdayOf(d: Date): (r: Weekday)
    requires ValidDate(d)
    ensures Ordinal(d) % 7 == 1 ==> r == Monday
    ensures Ordinal(d) % 7 == 0 ==> r == Sunday
  {
    var o := Ordinal(d);
    WeekShift(o);
    Week[(o + 6) % 7]
  }

  /** Shifting by six days moves ordinal 1 (mod 7) to Monday's slot and
      ordinal 0 (mod 7) to Sunday's. */
  lemma WeekShift(o: int)
    ensures o % 7 == 1 ==> (o + 6) % 7 == 0
    ensures o % 7 == 0 ==> (o + 6) % 7 == 6
  {
  }

  /** A fixed point that ties the ordinal to the real calendar:
      1 January 2024 was a Monday. */
  lemma NewYear2024IsMonday()
    ensures WeekdayOf(Date(2024, 1, 1)) == Monday
  {
  }

  /** One more year adds 366 days after a leap year and 365 otherwise. */
  lemma DaysBeforeYearStep(y: int)
    requires y >= 1
    ensures DaysBeforeYear(y + 1) == DaysBeforeYear(y) + (if IsLeap(y) then 366 else 365)
  {
    var k := y - 1;
    assert (k + 1) / 4 - k / 4 == (if y % 4 == 0 then 1 else 0);
    assert (k + 1) / 100 - k / 100 == (if y % 100 == 0 then 1 else 0);
    assert (k + 1) / 400 - k / 400 == (if y % 400 == 0 then 1 else 0);
  }

  /** The day after has the next ordinal: the calendar has no gaps. */
  lemma NextDayOrdinal(d: Date)
    requires ValidDate(d) && NextDay(d).Some?
    ensures Ordinal(NextDay(d).value) == Ordinal(d) + 1
  {
    if d.day == DaysInMonth(d.year, d.month) && d.month == 12 {
      DaysBeforeYearStep(d.year);
    }
  }

  /** Consecutive days have consecutive weekdays. */
  lemma NextDayWeekday(d: Date)
    requires ValidDate(d) && NextDay(d).Some?
    ensures WeekdayOf(NextDay(d).value) == WeekdayOf(d).Next()
  {
    NextDayOrdinal(d);
    WeekSuccessor(Ordinal(d));
  }

  /** A shift by `n` days that stays in range moves the ordinal by `n`. */
  lemma {:induction false} AddDaysOrdinal(d: Date, n: nat)
    requires ValidDate(d) && AddDays(d, n).Some?
    ensures Ordinal(AddDays(d, n).value) == Ordinal(d) + n
    decreases n
  {
    if n > 0 {
      NextDayOrdinal(d);
      AddDaysOrdinal(NextDay(d).value, n - 1);
    }
  }

  /** The last representable day, 31 December 9999. */
  const LastDay: Date := Date(MaxYear, 12, 31)

  /** Shifting by `n` days overflows exactly when it would pass the last
      representable day. */
  lemma {:induction false} AddDaysNoneIff(d: Date, n: nat)
    requires ValidDate(d)
    ensures AddDays(d, n).None? <==> Ordinal(d) + n > Ordinal(LastDay)
    decreases n
  {
    if n == 0 {
      OrdinalAtMostLast(d);
    } else if NextDay(d).Some? {
      var d' := NextDay(d).value;
      AddDaysOneMore(d, n - 1);
      NextDayOrdinal(d);
      AddDaysNoneIff(d', n - 1);
    }
  }

  /** No valid date lies after the last representable day. */
  lemma OrdinalAtMostLast(d: Date)
    requires ValidDate(d)
    ensures Ordinal(d) <= Ordinal(LastDay)
  {
    MonthEndsWithinYear(d.year, d.month);
    DaysBeforeYearStep(d.year);
    DaysBeforeYearBound(d.year + 1);
    DaysBeforeYearStep(MaxYear);
  }

  /** A month ends no later than its year does. */
  lemma MonthEndsWithinYear(y: int, m: int)
    requires 1 <= m <= 12
    ensures DaysBeforeMonth(y, m) + DaysInMonth(y, m) <= (if IsLeap(y) then 366 else 365)
  {
  }

  /** Year `y` starts at least a year of days before year 10000 per year
      in between. */
  lemma {:induction false} DaysBeforeYearBound(y: int)
    requires MinYear <= y <= MaxYear + 1
    ensures DaysBeforeYear(y) + 365 * (MaxYear + 1 - y) <= DaysBeforeYear(MaxYear + 1)
    decreases MaxYear + 1 - y
  {
    if y <= MaxYear {
      DaysBeforeYearStep(y);
      DaysBeforeYearBound(y + 1);
    }
  }

  /** Seconds since the start of the day before 1 January of year 1: the
      instant a valid date-time names, on one time line. */
  function Instant(t: DateTime): int
    requires ValidDate(t.date)
  {
    Ordinal(t.date) * 86400 + t.hour * 3600 + t.minute * 60 + t.second
  }

  /** `t - timedelta(seconds=1)` is exactly one second earlier on the
      time line, across midnight, month and year ends too. */
  lemma SubtractSecondExact(t: DateTime)
    requires ValidDateTime(t) && SubtractSecond(t).Some?
    ensures Instant(SubtractSecond(t).value) == Instant(t) - 1
  {
    if t.second == 0 && t.minute == 0 && t.hour == 0 {
      NextDayOrdinal(PrevDay(t.date).value);
    }
  }

  /** A whole number of weeks later, it is the same weekday again. */
  lemma WeekdayWeeksLater(d: Date, n: nat)
    requires ValidDate(d) && n % 7 == 0 && AddDays(d, n).Some?
    ensures WeekdayOf(AddDays(d, n).value) == WeekdayOf(d)
  {
    AddDaysOrdinal(d, n);
    WeekPeriod(Ordinal(d), n);
  }

  /** The week list repeats every seven ordinals. */
  lemma WeekPeriod(o: int, n: int)
    requires n % 7 == 0
    ensures Week[(o + n + 6) % 7] == Week[(o + 6) % 7]
  {
    assert (o + n + 6) % 7 == (o + 6) % 7;
  }

  /** The week list is cyclic under `Next`. */
  lemma WeekSuccessor(o: int)
    ensures Week[(o + 1 + 6) % 7] == Week[(o + 6) % 7].Next()
  {
    var i := (o + 6) % 7;
    assert (o + 1 + 6) % 7 == (i + 1) % 7;
  }

  /** Shifting by `k` days inside one month only moves the day number. */
  lemma {:induction false} AddDaysWithinMonth(d: Date, k: nat)
    requires ValidDate(d) && d.day + k <= DaysInMonth(d.year, d.month)
    ensures AddDays(d, k) == Some(Date(d.year, d.month, d.day + k))
    decreases k
  {
    if k > 0 {
      AddDaysWithinMonth(Date(d.year, d.month, d.day + 1), k - 1);
    }
  }

  /** A shift by `a + b` days is a shift by `a` followed by one by `b`;
      an overflow on the way is an overflow of the whole. */
  lemma {:induction false} AddDaysSplit(d: Date, a: nat, b: nat)
    requires ValidDate(d)
    ensures AddDays(d, a + b) ==
      (match AddDays(d, a) case None => None case Some(m) => AddDays(m, b))
    decreases a
  {
    if a > 0 {
      match NextDay(d)
      case None =>
      case Some(d') => AddDaysSplit(d', a - 1, b);
    }
  }

  /** A shift of any length from an overflow point overflows. */
  lemma {:induction false} AddDaysFromLastDay(n: nat)
    requires n >= 1
    ensures AddDays(Date(MaxYear, 12, 31), n) == None
  {
  }

  /** Python's month-end trick: 32 days after the first of a month lands
      in the following month (day 33 minus the month's length), and it
      overflows only from December 9999. */
  lemma AddThirtyTwoDays(y: int, m: int)
    requires MinYear <= y <= MaxYear && 1 <= m <= 12
    ensures (y == MaxYear && m == 12) <==> AddDays(Date(y, m, 1), 32).None?
    ensures AddDays(Date(y, m, 1), 32).Some? ==>
      AddDays(Date(y, m, 1), 32).value ==
        Date(if m == 12 then y + 1 else y, if m == 12 then 1 else m + 1, 33 - DaysInMonth(y, m))
  {
    if y == MaxYear && m == 12 {
      var first := Date(y, m, 1);
      AddDaysWithinMonth(first, 30);
      AddDaysSplit(first, 30, 2);
      AddDaysFromLastDay(2);
    } else {
      ThirtyTwoDaysLater(y, m);
    }
  }

  /** Below December 9999, 32 days after the first of a month is day
      `33 - length` of the next month. */
  lemma ThirtyTwoDaysLater(y: int, m: int)
    requires MinYear <= y <= MaxYear && 1 <= m <= 12 && !(y == MaxYear && m == 12)
    ensures AddDays(Date(y, m, 1), 32) ==
      Some(Date(if m == 12 then y + 1 else y, if m == 12 then 1 else m + 1, 33 - DaysInMonth(y, m)))
  {
    IntoNextMonth(y, m, 32);
  }

  /** From the first of a month, a shift of at least the month's length
      and at most 27 days more lands in the following month. */
  lemma IntoNextMonth(y: int, m: int, n: nat)
    requires MinYear <= y <= MaxYear && 1 <= m <= 12 && !(y == MaxYear && m == 12)
    requires DaysInMonth(y, m) <= n <= DaysInMonth(y, m) + 27
    ensures AddDays(Date(y, m, 1), n) ==
      Some(Date(if m == 12 then y + 1 else y, if m == 12 then 1 else m + 1, n + 1 - DaysInMonth(y, m)))
  {
    var first := Date(y, m, 1);
    var dim := DaysInMonth(y, m);
    var last := Date(y, m, dim);
    var next := Date(if m == 12 then y + 1 else y, if m == 12 then 1 else m + 1, 1);
    var k: nat := n - dim;
    AddDaysWithinMonth(first, dim - 1);
    MonthEndNext(y, m);
    AddDaysWithinMonth(next, k);
    ShiftAcross(first, last, next, dim - 1, k);
  }

  /** Reaching `last` after `a` days, and going on from the day after it
      for `k` more, is a shift by `a + 1 + k`. */
  lemma ShiftAcross(first: Date, last: Date, next: Date, a: nat, k: nat)
    requires ValidDate(first) && ValidDate(last)
    requires AddDays(first, a) == Some(last) && NextDay(last) == Some(next)
    ensures AddDays(first, a + 1 + k) == AddDays(next, k)
  {
    AddDaysOneMore(last, k);
    AddDaysSplit(first, a, k + 1);
  }

  /** The day after a month's last day is the first of the next month. */
  lemma MonthEndNext(y: int, m: int)
    requires MinYear <= y <= MaxYear && 1 <= m <= 12 && !(y == MaxYear && m == 12)
    ensures NextDay(Date(y, m, DaysInMonth(y, m))) ==
      Some(Date(if m == 12 then y + 1 else y, if m == 12 then 1 else m + 1, 1))
  {
  }

  /** One more day is one step and then the rest. */
  lemma AddDaysOneMore(d: Date, k: nat)
    requires ValidDate(d) && NextDay(d).Some?
    ensures AddDays(d, k + 1) == AddDays(NextDay(d).value, k)
  {
  }
}

=== FILE: contests.dfy ===
/** The backend's contest routes over the in-memory contest store:
    create, join, list and the once-a-day run verification. The session
    athlete, the clock and today's Strava activities are parameters. */
module Contests {
  import opened Wrappers
  import opened Calendar
  import opened Api
  import Seqs
  import StravaManager

  /** The `schedule` object of a create request; `None` is an absent key. */
  datatype ScheduleRequest = ScheduleRequest(
    kind: Option<string>, distance: Option<real>, days: Option<seq<string>>, time: Option<string>)

  /** The JSON body of a create request; `None` is an absent key, and an
      absent `schedule` reads as the empty object. */
  datatype CreateRequest = CreateRequest(
    title: Option<string>, stakeAmount: Option<real>, schedule: Option<ScheduleRequest>)

  /** A schedule that passed validation: a non-empty type and a non-zero
      distance in kilometres. The days and time are kept as sent. */
  datatype Schedule = Schedule(kind: string, distance: real, days: Option<seq<string>>, time: Option<string>)

  datatype Participant = Participant(
    id: int, name: string, paid: bool, completedDays: nat,
    lastVerified: Option<DateTime>, stravaConnected: bool)

  datatype Contest = Contest(
    id: int, creatorId: int, title: string, stakeAmount: real,
    startDate: DateTime, endDate: DateTime, schedule: Schedule,
    participants: seq<Participant>, status: string)

  /** The `contests` dictionary, as its entries in insertion order (the
      order Python iterates it in); each entry is keyed by its `id`. */
  type Store = seq<Contest>

  /** What a successful create or join replies with. */
  datatype Reply = Reply(store: Store, contest: Contest)

  /** What a successful run verification replies with. */
  datatype VerifyReply = VerifyReply(store: Store, contest: Contest, completedDays: nat,
                                     runKm: real, runStart: DateTime)

  const ContestDays: nat := 30

  // ---------------------------------------------------------------------
  // Lookups

  /** Where key `id` sits in the store, if it is there. */
  function KeyIndex(store: Store, id: int): (r: Option<nat>)
    ensures r.Some? ==> r.value < |store| && store[r.value].id == id
    ensures r.Some? ==> forall j :: 0 <= j < r.value ==> store[j].id != id
    ensures r.None? ==> forall j :: 0 <= j < |store| ==> store[j].id != id
  {
    if |store| == 0 then None
    else if store[0].id == id then Some(0)
    else match KeyIndex(store[1..], id)
      case None => None
      case Some(i) => Some(i + 1)
  }

  /** `next(p for p in participants if p['id'] == athlete_id)`: the first
      participant with that id. */
  function ParticipantIndex(ps: seq<Participant>, athleteId: int): (r: Option<nat>)
    ensures r.Some? ==> r.value < |ps| && ps[r.value].id == athleteId
    ensures r.Some? ==> forall j :: 0 <= j < r.value ==> ps[j].id != athleteId
    ensures r.None? ==> forall j :: 0 <= j < |ps| ==> ps[j].id != athleteId
  {
    if |ps| == 0 then None
    else if ps[0].id == athleteId then Some(0)
    else match ParticipantIndex(ps[1..], athleteId)
      case None => None
      case Some(i) => Some(i + 1)
  }

  /** `any(p['id'] == athlete_id for p in c['participants'])`. */
  predicate IsMember(c: Contest, athleteId: int) {
    ParticipantIndex(c.participants, athleteId).Some?
  }

  /** Membership is exactly `any` over the participants' ids. */
  lemma IsMemberIff(c: Contest, athleteId: int)
    ensures IsMember(c, athleteId) <==> exists k :: 0 <= k < |c.participants| && c.participants[k].id == athleteId
  {
  }

  /** `contests[c['id']] = c`: replaces the entry with that key in place,
      or adds a new entry at the end. */
  function Put(store: Store, c: Contest): (r: Store)
    ensures KeyIndex(store, c.id).Some? ==> r == store[KeyIndex(store, c.id).value := c]
    ensures KeyIndex(store, c.id).None? ==> r == store + [c]
  {
    match KeyIndex(store, c.id)
    case Some(i) => store[i := c]
    case None => store + [c]
  }

  /** The participant record for an athlete who has just joined. */
  function NewParticipant(a: Athlete): (p: Participant)
    ensures p.id == a.id && p.completedDays == 0 && p.lastVerified.None?
    ensures !p.paid && !p.stravaConnected
    ensures p.name == a.firstname + " " + a.lastname
  {
    Participant(a.id, a.firstname + " " + a.lastname, false, 0, None, false)
  }

  // ---------------------------------------------------------------------
  // Store invariant

  predicate DistinctIds(ps: seq<Participant>) {
    forall i, j :: 0 <= i < j < |ps| ==> ps[i].id != ps[j].id
  }

  /** The creator is the first participant and nobody is listed twice. */
  predicate ParticipantsOk(c: Contest) {
    |c.participants| >= 1 && c.participants[0].id == c.creatorId && DistinctIds(c.participants)
  }

  /** The keys are exactly 1..n in insertion order, and every contest's
      participant list is well formed. */
  predicate WellFormed(store: Store) {
    forall i :: 0 <= i < |store| ==> store[i].id == i + 1 && ParticipantsOk(store[i])
  }

  /** In a well-formed store, key `id` is present exactly when it is
      between 1 and the number of contests, at position `id - 1`. */
  lemma WellFormedKeys(store: Store, id: int)
    requires WellFormed(store)
    ensures KeyIndex(store, id).Some? <==> 1 <= id <= |store|
    ensures KeyIndex(store, id).Some? ==> KeyIndex(store, id).value == id - 1
  {
    if 1 <= id <= |store| {
      assert store[id - 1].id == id;
    }
  }

  /** No participant's progress is lost between two stores: every contest
      keeps its key and every participant keeps its place, its id and at
      least its completed days. */
  ghost predicate ProgressKept(s: Store, s': Store) {
    && |s| <= |s'|
    && (forall i :: 0 <= i < |s| ==> s'[i].id == s[i].id)
    && (forall i :: 0 <= i < |s| ==> |s[i].participants| <= |s'[i].participants|)
    && (forall i, j :: 0 <= i < |s| && 0 <= j < |s[i].participants| ==>
          s'[i].participants[j].id == s[i].participants[j].id &&
          s[i].participants[j].completedDays <= s'[i].participants[j].completedDays)
  }

  // ---------------------------------------------------------------------
  // create

  /** `not schedule.get('type') or not schedule.get('distance')`. */
  predicate MissingTypeOrDistance(s: ScheduleRequest) {
    || s.kind.None? || s.kind.value == ""
    || s.distance.None? || s.distance.value == 0.0
  }

  /** A weekly schedule whose `days` is absent or empty. */
  predicate WeeklyWithNoDays(s: ScheduleRequest) {
    s.kind == Some("weekly") && (s.days.None? || |s.days.value| == 0)
  }

  /** The request's schedule, an absent one read as `{}`. */
  function ScheduleOf(req: CreateRequest): ScheduleRequest {
    match req.schedule
    case None => ScheduleRequest(None, None, None, None)
    case Some(s) => s
  }

  /** `create_contest`. */
  function Create(store: Store, athlete: Option<Athlete>, req: CreateRequest, now: DateTime): (r: Result<Reply, ApiError>)
    requires ValidDateTime(now)
    ensures athlete.None? ==> r == Err(NotAuthenticated)
    ensures athlete.Some? && MissingTypeOrDistance(ScheduleOf(req)) ==> r == Err(InvalidSchedule)
    ensures athlete.Some? && !MissingTypeOrDistance(ScheduleOf(req)) && WeeklyWithNoDays(ScheduleOf(req))
            ==> r == Err(WeeklyWithoutDays)
    ensures r.Ok? <==>
      && athlete.Some? && !MissingTypeOrDistance(ScheduleOf(req)) && !WeeklyWithNoDays(ScheduleOf(req))
      && req.title.Some? && req.stakeAmount.Some? && AddDays(now.date, ContestDays).Some?
    ensures athlete.Some? && !MissingTypeOrDistance(ScheduleOf(req)) && !WeeklyWithNoDays(ScheduleOf(req))
            && (req.title.None? || req.stakeAmount.None? || AddDays(now.date, ContestDays).None?)
            ==> r == Err(ServerError)
    ensures r.Ok? ==>
      var c := r.value.contest;
      var s := ScheduleOf(req);
      && c.id == |store| + 1
      && c.creatorId == athlete.value.id
      && c.title == req.title.value && c.stakeAmount == req.stakeAmount.value
      && c.status == "pending"
      && c.participants == [NewParticipant(athlete.value)]
      && c.schedule == Schedule(s.kind.value, s.distance.value, s.days, s.time)
      && c.startDate == now
      && c.endDate == now.(date := AddDays(now.date, ContestDays).value)
      && KeyIndex(r.value.store, c.id).Some?
      && r.value.store[KeyIndex(r.value.store, c.id).value] == c
  {
    match athlete
    case None => Err(NotAuthenticated)
    case Some(a) =>
      var id := |store| + 1;
      var s := ScheduleOf(req);
      if MissingTypeOrDistance(s) then Err(InvalidSchedule)
      else if WeeklyWithNoDays(s) then Err(WeeklyWithoutDays)
      else if req.title.None? || req.stakeAmount.None? then Err(ServerError)
      else match AddDays(now.date, ContestDays)
        case None => Err(ServerError)
        case Some(endDay) =>
          var c := Contest(id, a.id, req.title.value, req.stakeAmount.value, now, now.(date := endDay),
                           Schedule(s.kind.value, s.distance.value, s.days, s.time),
                           [NewParticipant(a)], "pending");
          PutFinds(store, c);
          Ok(Reply(Put(store, c), c))
  }

  /** In a well-formed store a new contest is appended under the next
      free key, nothing else changes, and the store stays well formed. */
  lemma CreateAppends(store: Store, athlete: Option<Athlete>, req: CreateRequest, now: DateTime)
    requires ValidDateTime(now) && WellFormed(store)
    requires Create(store, athlete, req, now).Ok?
    ensures Create(store, athlete, req, now).value.store == store + [Create(store, athlete, req, now).value.contest]
    ensures WellFormed(Create(store, athlete, req, now).value.store)
    ensures ProgressKept(store, Create(store, athlete, req, now).value.store)
  {
    WellFormedKeys(store, |store| + 1);
  }

  // ---------------------------------------------------------------------
  // join

  /** `join_contest`. */
  function Join(store: Store, athlete: Option<Athlete>, contestId: int): (r: Result<Reply, ApiError>)
    ensures athlete.None? ==> r == Err(NotAuthenticated)
    ensures athlete.Some? && KeyIndex(store, contestId).None? ==> r == Err(ContestNotFound)
    ensures (athlete.Some? && KeyIndex(store, contestId).Some?
             && IsMember(store[KeyIndex(store, contestId).value], athlete.value.id)) ==> r == Err(AlreadyJoined)
    ensures r.Ok? <==>
      && athlete.Some? && KeyIndex(store, contestId).Some?
      && !IsMember(store[KeyIndex(store, contestId).value], athlete.value.id)
    ensures r.Ok? ==>
      var k := KeyIndex(store, contestId).value;
      && !IsMember(store[k], athlete.value.id)
      && r.value.contest == store[k].(participants := store[k].participants + [NewParticipant(athlete.value)])
      && r.value.store == store[k := r.value.contest]
  {
    match athlete
    case None => Err(NotAuthenticated)
    case Some(a) =>
      match KeyIndex(store, contestId)
      case None => Err(ContestNotFound)
      case Some(k) =>
        var c := store[k];
        if IsMember(c, a.id) then Err(AlreadyJoined)
        else
          var c' := c.(participants := c.participants + [NewParticipant(a)]);
          Ok(Reply(store[k := c'], c'))
  }

  /** Joining keeps the store well formed and loses nobody's progress. */
  lemma JoinPreserves(store: Store, athlete: Option<Athlete>, contestId: int)
    requires WellFormed(store) && Join(store, athlete, contestId).Ok?
    ensures WellFormed(Join(store, athlete, contestId).value.store)
    ensures ProgressKept(store, Join(store, athlete, contestId).value.store)
  {
    var k := KeyIndex(store, contestId).value;
    var c' := Join(store, athlete, contestId).value.contest;
    var a := athlete.value;
    assert forall j :: 0 <= j < |store[k].participants| ==> store[k].participants[j].id != a.id;
    assert ParticipantsOk(c');
  }

  /** A second join by the same athlete is refused: nobody is listed
      twice. */
  lemma JoinTwiceRefused(store: Store, athlete: Option<Athlete>, contestId: int)
    requires Join(store, athlete, contestId).Ok?
    ensures Join(Join(store, athlete, contestId).value.store, athlete, contestId) == Err(AlreadyJoined)
  {
    var k := KeyIndex(store, contestId).value;
    var s' := Join(store, athlete, contestId).value.store;
    var ps := s'[k].participants;
    assert ps[|ps| - 1].id == athlete.value.id;
    KeyIndexAfterUpdate(store, k, s'[k]);
  }

  /** Replacing the entry found for a key by one with the same key keeps
      that key's position. */
  lemma KeyIndexAfterUpdate(store: Store, k: nat, c: Contest)
    requires k < |store| && KeyIndex(store, store[k].id) == Some(k) && c.id == store[k].id
    ensures KeyIndex(store[k := c], c.id) == Some(k)
  {
    KeyIndexAt(store[k := c], c.id, k);
  }

  /** The key index is the first position holding the key. */
  lemma {:induction false} KeyIndexAt(store: Store, id: int, k: nat)
    requires k < |store| && store[k].id == id
    requires forall j :: 0 <= j < k ==> store[j].id != id
    ensures KeyIndex(store, id) == Some(k)
  {
    if k > 0 {
      KeyIndexAt(store[1..], id, k - 1);
    }
  }

  /** After `Put`, the contest is found under its key. */
  lemma PutFinds(store: Store, c: Contest)
    ensures KeyIndex(Put(store, c), c.id).Some?
    ensures Put(store, c)[KeyIndex(Put(store, c), c.id).value] == c
  {
    match KeyIndex(store, c.id)
    case Some(i) => KeyIndexAt(store[i := c], c.id, i);
    case None => KeyIndexAt(store + [c], c.id, |store|);
  }

  // ---------------------------------------------------------------------
  // list

  /** `list_contests`: contests the athlete takes part in, and the rest. */
  function List(store: Store, athlete: Option<Athlete>): (r: Result<(seq<Contest>, seq<Contest>), ApiError>)
    ensures athlete.None? <==> r == Err(NotAuthenticated)
    ensures r.Ok? ==> forall i :: 0 <= i < |r.value.0| ==> IsMember(r.value.0[i], athlete.value.id)
    ensures r.Ok? ==> forall i :: 0 <= i < |r.value.1| ==> !IsMember(r.value.1[i], athlete.value.id)
  {
    match athlete
    case None => Err(NotAuthenticated)
    case Some(a) => Ok(Seqs.Partition(store, c => IsMember(c, a.id)))
  }

  /** Every contest is listed exactly once, on the side its membership
      decides; both lists keep the store's (ascending key) order. */
  lemma ListPartition(store: Store, a: Athlete)
    requires WellFormed(store)
    ensures
      var (participating, available) := List(store, Some(a)).value;
      && |participating| + |available| == |store|
      && multiset(participating) + multiset(available) == multiset(store)
      && (forall c :: c in store ==> (c in participating <==> IsMember(c, a.id)))
      && (forall c :: c in store ==> (c in available <==> !IsMember(c, a.id)))
      && Seqs.Ascending(participating, (c: Contest) => c.id)
      && Seqs.Ascending(available, (c: Contest) => c.id)
  {
    var p := (c: Contest) => IsMember(c, a.id);
    Seqs.PartitionMultiset(store, p);
    forall c | c in store
      ensures c in Seqs.Partition(store, p).0 <==> p(c)
      ensures c in Seqs.Partition(store, p).1 <==> !p(c)
    {
      Seqs.PartitionExactlyOne(store, p, c);
    }
    Seqs.FilterAscending(store, p, (c: Contest) => c.id);
    Seqs.FilterAscending(store, Seqs.Not(p), (c: Contest) => c.id);
  }

  // ---------------------------------------------------------------------
  // verify-run

  /** A qualifying run: typed "Run" and at least the schedule's distance,
      converted to metres. */
  predicate QualifyingRun(row: StravaManager.Row, distanceKm: real) {
    row.kind == "Run" && row.distance >= distanceKm * 1000.0
  }

  /** The day's qualifying runs for a contest, in table order. */
  function QualifyingRuns(c: Contest, activities: seq<StravaManager.Activity>): (runs: seq<StravaManager.Row>)
    ensures |runs| <= |activities|
    ensures forall i :: 0 <= i < |runs| ==> runs[i].kind == "Run" && runs[i].distance >= c.schedule.distance * 1000.0
  {
    Seqs.Filter(StravaManager.ActivityTable(activities), row => QualifyingRun(row, c.schedule.distance))
  }

  /** Some run qualifies exactly when Strava lists an activity typed "Run"
      that is long enough. */
  lemma QualifyingRunsNonEmpty(c: Contest, activities: seq<StravaManager.Activity>)
    ensures |QualifyingRuns(c, activities)| > 0 <==>
      exists a :: a in activities && StravaManager.IsRun(a) && a.distance >= c.schedule.distance * 1000.0
  {
    var q := (row: StravaManager.Row) => QualifyingRun(row, c.schedule.distance);
    var table := StravaManager.ActivityTable(activities);
    var runs := Seqs.Filter(table, q);
    if exists a :: a in activities && StravaManager.IsRun(a) && a.distance >= c.schedule.distance * 1000.0 {
      var a :| a in activities && StravaManager.IsRun(a) && a.distance >= c.schedule.distance * 1000.0;
      StravaManager.TableMembership(activities, a);
      Seqs.FilterMembership(table, q, StravaManager.ToRow(a));
    }
    if |runs| > 0 {
      var row := runs[0];
      Seqs.FilterMembership(table, q, row);
      RowFromRun(activities, row);
    }
  }

  /** Whether the athlete already verified on the calendar day of `now`. */
  predicate VerifiedOnDay(p: Participant, now: DateTime): (b: bool)
    ensures p.lastVerified.None? ==> !b
    ensures p.lastVerified.Some? ==> (b <==> p.lastVerified.value.date == now.date)
  {
    p.lastVerified.Some? && p.lastVerified.value.date == now.date
  }

  /** `verify_run`. `fetched` is what Strava lists for today, or `None`
      when building the client or fetching raised; the activities go
      through the activity table, as `get_activities_between` does. The
      refusals come in the route's order. */
  function Verify(store: Store, athlete: Option<Athlete>, contestId: int, now: DateTime,
                  fetched: Option<seq<StravaManager.Activity>>): (r: Result<VerifyReply, ApiError>)
    requires ValidDateTime(now)
    ensures athlete.None? ==> r == Err(NotAuthenticated)
    ensures athlete.Some? && KeyIndex(store, contestId).None? ==> r == Err(ContestNotFound)
    ensures athlete.Some? && KeyIndex(store, contestId).Some? ==>
      var c := store[KeyIndex(store, contestId).value];
      && (!IsMember(c, athlete.value.id) ==> r == Err(NotParticipating))
      && (IsMember(c, athlete.value.id) ==>
            var p := c.participants[ParticipantIndex(c.participants, athlete.value.id).value];
            && (!p.stravaConnected ==> r == Err(StravaNotConnected))
            && (p.stravaConnected && VerifiedOnDay(p, now) ==> r == Err(AlreadyVerifiedToday))
            && (p.stravaConnected && !VerifiedOnDay(p, now) ==>
                  && (fetched.None? ==> r == Err(ServerError))
                  && (fetched.Some? && |QualifyingRuns(c, fetched.value)| == 0 ==> r == Err(NoValidRun))
                  && (fetched.Some? && |QualifyingRuns(c, fetched.value)| > 0 && c.schedule.kind == "weekly" ==>
                        && (c.schedule.days.None? ==> r == Err(ServerError))
                        && (c.schedule.days.Some? && WeekdayOf(now.date).Name() !in c.schedule.days.value ==>
                              r == Err(NotScheduledDay(WeekdayOf(now.date).Name()))))))
  {
    match athlete
    case None => Err(NotAuthenticated)
    case Some(a) =>
      match KeyIndex(store, contestId)
      case None => Err(ContestNotFound)
      case Some(k) =>
        var c := store[k];
        match ParticipantIndex(c.participants, a.id)
        case None => Err(NotParticipating)
        case Some(j) =>
          var p := c.participants[j];
          if !p.stravaConnected then Err(StravaNotConnected)
          else if VerifiedOnDay(p, now) then Err(AlreadyVerifiedToday)
          else if fetched.None? then Err(ServerError)
          else
            var runs := QualifyingRuns(c, fetched.value);
            if |runs| == 0 then Err(NoValidRun)
            else
              var today := WeekdayOf(now.date).Name();
              if c.schedule.kind == "weekly" && c.schedule.days.None? then Err(ServerError)
              else if c.schedule.kind == "weekly" && today !in c.schedule.days.value then Err(NotScheduledDay(today))
              else
                var p' := p.(completedDays := p.completedDays + 1, lastVerified := Some(now));
                var c' := c.(participants := c.participants[j := p']);
                Ok(VerifyReply(store[k := c'], c', p'.completedDays, runs[0].distance / 1000.0, runs[0].startLocal))
  }

  /** The whole verification ladder: a run is credited exactly when the
      athlete is signed in, the contest exists, the athlete takes part,
      Strava is connected, nothing was verified today, some run of the day
      is long enough and, for a weekly schedule, today is a listed day. */
  lemma VerifySucceedsIff(store: Store, athlete: Option<Athlete>, contestId: int, now: DateTime,
                          fetched: Option<seq<StravaManager.Activity>>)
    requires ValidDateTime(now)
    ensures Verify(store, athlete, contestId, now, fetched).Ok? <==>
      && athlete.Some?
      && KeyIndex(store, contestId).Some?
      && var c := store[KeyIndex(store, contestId).value];
         && IsMember(c, athlete.value.id)
         && var p := c.participants[ParticipantIndex(c.participants, athlete.value.id).value];
            && p.stravaConnected
            && !VerifiedOnDay(p, now)
            && fetched.Some?
            && (exists a :: a in fetched.value && StravaManager.IsRun(a) && a.distance >= c.schedule.distance * 1000.0)
            && (c.schedule.kind == "weekly" ==>
                  c.schedule.days.Some? && WeekdayOf(now.date).Name() in c.schedule.days.value)
  {
    VerifyOkIff(store, athlete, contestId, now, fetched);
    if athlete.Some? && KeyIndex(store, contestId).Some? && fetched.Some? {
      QualifyingRunsNonEmpty(store[KeyIndex(store, contestId).value], fetched.value);
    }
  }

  /** The success condition with the valid runs still as the route's list. */
  lemma VerifyOkIff(store: Store, athlete: Option<Athlete>, contestId: int, now: DateTime,
                    fetched: Option<seq<StravaManager.Activity>>)
    requires ValidDateTime(now)
    ensures Verify(store, athlete, contestId, now, fetched).Ok? <==>
      && athlete.Some?
      && KeyIndex(store, contestId).Some?
      && var c := store[KeyIndex(store, contestId).value];
         && IsMember(c, athlete.value.id)
         && var p := c.participants[ParticipantIndex(c.participants, athlete.value.id).value];
            && p.stravaConnected
            && !VerifiedOnDay(p, now)
            && fetched.Some?
            && |QualifyingRuns(c, fetched.value)| > 0
            && (c.schedule.kind == "weekly" ==>
                  c.schedule.days.Some? && WeekdayOf(now.date).Name() in c.schedule.days.value)
  {
  }

  /** Every row of the activity table comes from a run among the
      activities, with the same distance. */
  lemma RowFromRun(activities: seq<StravaManager.Activity>, row: StravaManager.Row)
    requires row in StravaManager.ActivityTable(activities)
    ensures exists a :: a in activities && StravaManager.IsRun(a) && a.distance == row.distance
  {
    var rows := StravaManager.Rows(activities);
    Seqs.FilterMembership(rows, StravaManager.IsRunRow, row);
    var i :| 0 <= i < |rows| && rows[i] == row;
    assert StravaManager.ToRow(activities[i]) == row;
    assert activities[i] in activities;
  }

  /** A credited run adds exactly one completed day to the verifying
      participant, stamps the verification time, and changes nothing
      else: no other participant, no other contest. */
  lemma VerifyUpdate(store: Store, athlete: Option<Athlete>, contestId: int, now: DateTime,
                     fetched: Option<seq<StravaManager.Activity>>)
    requires ValidDateTime(now)
    requires Verify(store, athlete, contestId, now, fetched).Ok?
    ensures
      var rep := Verify(store, athlete, contestId, now, fetched).value;
      var k := KeyIndex(store, contestId).value;
      var c := store[k];
      var j := ParticipantIndex(c.participants, athlete.value.id).value;
      var p := c.participants[j];
      && rep.store == store[k := rep.contest]
      && rep.contest == c.(participants := c.participants[j := rep.contest.participants[j]])
      && rep.contest.participants[j] == p.(completedDays := p.completedDays + 1, lastVerified := Some(now))
      && rep.completedDays == p.completedDays + 1
    ensures
      var rep := Verify(store, athlete, contestId, now, fetched).value;
      var runs := QualifyingRuns(store[KeyIndex(store, contestId).value], fetched.value);
      && |runs| > 0
      && rep.runKm == runs[0].distance / 1000.0
      && rep.runStart == runs[0].startLocal
  {
  }

  /** Verification keeps the store well formed and loses no progress. */
  lemma VerifyPreserves(store: Store, athlete: Option<Athlete>, contestId: int, now: DateTime,
                        fetched: Option<seq<StravaManager.Activity>>)
    requires ValidDateTime(now) && WellFormed(store)
    requires Verify(store, athlete, contestId, now, fetched).Ok?
    ensures WellFormed(Verify(store, athlete, contestId, now, fetched).value.store)
    ensures ProgressKept(store, Verify(store, athlete, contestId, now, fetched).value.store)
  {
    VerifyUpdate(store, athlete, contestId, now, fetched);
    var k := KeyIndex(store, contestId).value;
    var j := ParticipantIndex(store[k].participants, athlete.value.id).value;
    var rep := Verify(store, athlete, contestId, now, fetched).value;
    ReplaceParticipantKeeps(store, k, j, rep.contest.participants[j]);
  }

  /** Replacing one participant by one with the same id and at least its
      completed days keeps the store well formed and loses no progress. */
  lemma ReplaceParticipantKeeps(store: Store, k: nat, j: nat, p: Participant)
    requires WellFormed(store) && k < |store| && j < |store[k].participants|
    requires p.id == store[k].participants[j].id
    requires p.completedDays >= store[k].participants[j].completedDays
    ensures var c := store[k];
      && WellFormed(store[k := c.(participants := c.participants[j := p])])
      && ProgressKept(store, store[k := c.(participants := c.participants[j := p])])
  {
    var c := store[k];
    var c' := c.(participants := c.participants[j := p]);
    assert ParticipantsOk(c') by {
      assert forall i :: 0 <= i < |c'.participants| ==> c'.participants[i].id == c.participants[i].id;
    }
  }

  /** At most one credited run per participant per calendar day: right
      after a success, any verification on the same day is refused. */
  lemma VerifyOncePerDay(store: Store, athlete: Option<Athlete>, contestId: int, now: DateTime,
                         fetched: Option<seq<StravaManager.Activity>>, later: DateTime,
                         fetchedLater: Option<seq<StravaManager.Activity>>)
    requires ValidDateTime(now) && ValidDateTime(later) && later.date == now.date
    requires Verify(store, athlete, contestId, now, fetched).Ok?
    ensures Verify(Verify(store, athlete, contestId, now, fetched).value.store,
                   athlete, contestId, later, fetchedLater) == Err(AlreadyVerifiedToday)
  {
    VerifyUpdate(store, athlete, contestId, now, fetched);
    var rep := Verify(store, athlete, contestId, now, fetched).value;
    var k := KeyIndex(store, contestId).value;
    KeyIndexAfterUpdate(store, k, rep.contest);
    var c := store[k];
    var j := ParticipantIndex(c.participants, athlete.value.id).value;
    ParticipantIndexAfterUpdate(c.participants, j, rep.contest.participants[j]);
  }

  /** Replacing the participant found for an id by one with the same id
      keeps that id's position. */
  lemma ParticipantIndexAfterUpdate(ps: seq<Participant>, j: nat, p: Participant)
    requires j < |ps| && ParticipantIndex(ps, ps[j].id) == Some(j) && p.id == ps[j].id
    ensures ParticipantIndex(ps[j := p], p.id) == Some(j)
  {
    ParticipantIndexAt(ps[j := p], p.id, j);
  }

  /** The participant index is the first position holding the id. */
  lemma {:induction false} ParticipantIndexAt(ps: seq<Participant>, id: int, j: nat)
    requires j < |ps| && ps[j].id == id
    requires forall i :: 0 <= i < j ==> ps[i].id != id
    ensures ParticipantIndex(ps, id) == Some(j)
  {
    if j > 0 {
      ParticipantIndexAt(ps[1..], id, j - 1);
    }
  }
}

=== FILE: contract.dfy ===
/** The frontend's contract service: the goal object written by
    `createChallenge`, the field and date mapping of `getChallengeDetails`,
    the count read, and the two stub checks. The chain is a value handed in:
    the replies its read calls give. The goal travels as JSON text; the
    model keeps the value that text parses to, or `None` when `JSON.parse`
    rejects it. */
module ContractService {
  import opened Wrappers

  /** A JSON value as `JSON.parse` builds it. Object members keep their
      textual order; a repeated key is read from its last occurrence. */
  datatype Json =
    | JNull
    | JBool(b: bool)
    | JNumber(n: real)
    | JString(s: string)
    | JArray(items: seq<Json>)
    | JObject(members: seq<(string, Json)>)

  /** Why a call into the service throws: the node refused or reverted the
      read, the goal text is not JSON, or a property was read on `null`. */
  datatype Failure = CallFailed | SyntaxError | TypeError

  /** A participant as the dashboard expects the competition to list it. */
  datatype ChainParticipant = ChainParticipant(id: int, name: Option<string>, address: string,
                                               completedDays: nat, stravaConnected: bool)

  /** The `competitions(id)` getter's reply. */
  datatype Competition = Competition(creator: string, goal: Option<Json>, deadline: nat, prizePool: nat,
                                     ended: bool, participants: seq<ChainParticipant>)

  /** What the node answers to the two reads; an id absent from
      `competitions` is a reverted call. */
  datatype Node = Node(competitionCount: Result<nat, Failure>, competitions: map<int, Result<Competition, Failure>>)

  /** The object `getChallengeDetails` returns; `None` stands for a goal
      field that is `undefined`. */
  datatype Details = Details(creator: string, title: Option<Json>, stakeAmount: nat,
                             startDateMs: int, endDateMs: int, scheduleType: Option<Json>,
                             scheduleDays: Option<Json>, targetDistance: Option<Json>, ended: bool,
                             participants: seq<ChainParticipant>)

  /** The challenge description `createChallenge` packs into the goal. */
  datatype Goal = Goal(title: string, scheduleType: string, scheduleDays: seq<string>, targetDistance: real)

  /** The `createCompetition` transaction: goal, duration in days, the
      stake in ether (converted to wei by `parseEther`) and the gas limit. */
  datatype CreateCall = CreateCall(goal: Json, duration: int, stake: real, gasLimit: nat)

  const CreateGasLimit: nat := 500000
  const MsPerSecond: int := 1000
  /** The assumed challenge length: seven days in milliseconds. */
  const WeekMs: int := 7 * 24 * 60 * 60 * 1000

  // ---------------------------------------------------------------------
  // JSON access

  /** The value of the last member named `key`. */
  function Lookup(members: seq<(string, Json)>, key: string): (r: Option<Json>)
    ensures r.Some? ==>
      exists i :: 0 <= i < |members| && members[i] == (key, r.value)
        && forall j :: i < j < |members| ==> members[j].0 != key
    ensures r.None? ==> forall i :: 0 <= i < |members| ==> members[i].0 != key
  {
    if |members| == 0 then None
    else if members[|members| - 1].0 == key then Some(members[|members| - 1].1)
    else Lookup(members[..|members| - 1], key)
  }

  /** A JavaScript property read `v.key`: on `null` it throws, on an
      object it yields the member, on anything else `undefined`. */
  function Property(v: Json, key: string): (r: Result<Option<Json>, Failure>)
    ensures r.Err? <==> v.JNull?
    ensures r.Ok? && r.value.Some? ==> v.JObject?
  {
    match v
    case JNull => Err(TypeError)
    case JObject(members) => Ok(Lookup(members, key))
    case _ => Ok(None)
  }

  /** The value a property read yields when it does not throw:
      `undefined` (`None`) unless `v` is an object with that key. */
  function Field(v: Json, key: string): (r: Option<Json>)
    ensures v.JObject? ==> r == Lookup(v.members, key)
    ensures !v.JObject? ==> r.None?
  {
    if v.JObject? then Lookup(v.members, key) else None
  }

  function Keys(members: seq<(string, Json)>): (keys: seq<string>)
    ensures |keys| == |members|
    ensures forall i :: 0 <= i < |members| ==> keys[i] == members[i].0
  {
    if |members| == 0 then [] else [members[0].0] + Keys(members[1..])
  }

  function StringArray(ss: seq<string>): (items: seq<Json>)
    ensures |items| == |ss|
    ensures forall i :: 0 <= i < |ss| ==> items[i] == JString(ss[i])
  {
    if |ss| == 0 then [] else [JString(ss[0])] + StringArray(ss[1..])
  }

  /** The strings of an array whose items are all strings. */
  function ReadStrings(items: seq<Json>): Option<seq<string>> {
    if |items| == 0 then Some([])
    else match (items[0], ReadStrings(items[1..]))
      case (JString(s), Some(rest)) => Some([s] + rest)
      case _ => None
  }

  lemma {:induction false} ReadStringArray(ss: seq<string>)
    ensures ReadStrings(StringArray(ss)) == Some(ss)
  {
    if |ss| > 0 {
      ReadStringArray(ss[1..]);
      assert StringArray(ss)[1..] == StringArray(ss[1..]);
      assert [ss[0]] + ss[1..] == ss;
    }
  }

  // ---------------------------------------------------------------------
  // The goal

  /** `JSON.stringify({title, scheduleType, scheduleDays, targetDistance})`,
      as the value the text parses back to. */
  function EncodeGoal(g: Goal): (j: Json)
    ensures j.JObject?
    ensures Keys(j.members) == ["title", "scheduleType", "scheduleDays", "targetDistance"]
  {
    JObject([("title", JString(g.title)), ("scheduleType", JString(g.scheduleType)),
             ("scheduleDays", JArray(StringArray(g.scheduleDays))),
             ("targetDistance", JNumber(g.targetDistance))])
  }

  /** Each of the four keys reads back its own value. */
  lemma EncodeGoalFields(g: Goal)
    ensures Field(EncodeGoal(g), "title") == Some(JString(g.title))
    ensures Field(EncodeGoal(g), "scheduleType") == Some(JString(g.scheduleType))
    ensures Field(EncodeGoal(g), "scheduleDays") == Some(JArray(StringArray(g.scheduleDays)))
    ensures Field(EncodeGoal(g), "targetDistance") == Some(JNumber(g.targetDistance))
  {
    var ms := EncodeGoal(g).members;
    assert ms[..3][..2] == ms[..2] && ms[..2][..1] == ms[..1];
    assert Lookup(ms[..1], "title") == Some(JString(g.title));
    assert Lookup(ms[..2], "scheduleType") == Some(JString(g.scheduleType));
    assert Lookup(ms[..3], "scheduleDays") == Some(JArray(StringArray(g.scheduleDays)));
  }

  /** Reads the four goal fields back with their types. */
  function ReadGoal(j: Json): (r: Option<Goal>)
    ensures r.Some? ==>
      && Field(j, "title") == Some(JString(r.value.title))
      && Field(j, "scheduleType") == Some(JString(r.value.scheduleType))
      && Field(j, "scheduleDays").Some? && Field(j, "scheduleDays").value.JArray?
      && ReadStrings(Field(j, "scheduleDays").value.items) == Some(r.value.scheduleDays)
      && Field(j, "targetDistance") == Some(JNumber(r.value.targetDistance))
  {
    match (Field(j, "title"), Field(j, "scheduleType"), Field(j, "scheduleDays"), Field(j, "targetDistance"))
    case (Some(JString(t)), Some(JString(k)), Some(JArray(ds)), Some(JNumber(d))) =>
      (match ReadStrings(ds)
       case Some(days) => Some(Goal(t, k, days, d))
       case None => None)
    case _ => None
  }

  /** The goal the creator writes is the goal a reader gets back. */
  lemma GoalRoundTrip(g: Goal)
    ensures ReadGoal(EncodeGoal(g)) == Some(g)
  {
    EncodeGoalFields(g);
    ReadStringArray(g.scheduleDays);
  }

  /** `createChallenge`: the transaction it sends. The stake and the goal
      fields are passed on unchanged. */
  function CreateChallenge(title: string, duration: int, scheduleType: string, scheduleDays: seq<string>,
                           targetDistance: real, stake: real): (call: CreateCall)
    ensures ReadGoal(call.goal) == Some(Goal(title, scheduleType, scheduleDays, targetDistance))
    ensures call.goal.JObject? && Keys(call.goal.members) == ["title", "scheduleType", "scheduleDays", "targetDistance"]
    ensures call.duration == duration && call.stake == stake && call.gasLimit == CreateGasLimit
  {
    var g := Goal(title, scheduleType, scheduleDays, targetDistance);
    GoalRoundTrip(g);
    CreateCall(EncodeGoal(g), duration, stake, CreateGasLimit)
  }

  // ---------------------------------------------------------------------
  // Reads

  /** `contract.competitions(id)`: the node's reply, or a reverted call. */
  function ReadCompetition(node: Node, id: int): (r: Result<Competition, Failure>)
    ensures id !in node.competitions ==> r == Err(CallFailed)
    ensures id in node.competitions ==> r == node.competitions[id]
  {
    if id in node.competitions then node.competitions[id] else Err(CallFailed)
  }

  /** `getChallengeCount`: the node's count, or its error rethrown. */
  function GetChallengeCount(node: Node): (r: Result<nat, Failure>)
    ensures node.competitionCount.Err? ==> r == Err(node.competitionCount.error)
    ensures r.Ok? <==> node.competitionCount.Ok?
    ensures r.Ok? ==> r.value == node.competitionCount.value
  {
    node.competitionCount
  }

  /** `getChallengeDetails`. The goal is parsed and its four fields are
      read; dates come from the deadline, in milliseconds. */
  function GetChallengeDetails(node: Node, id: int): (r: Result<Details, Failure>)
    ensures ReadCompetition(node, id).Err? ==> r == Err(ReadCompetition(node, id).error)
    ensures ReadCompetition(node, id).Ok? ==>
      var c := ReadCompetition(node, id).value;
      && (c.goal.None? ==> r == Err(SyntaxError))
      && (c.goal == Some(JNull) ==> r == Err(TypeError))
      && (r.Ok? <==> c.goal.Some? && c.goal.value != JNull)
    ensures r.Ok? ==>
      var c := ReadCompetition(node, id).value;
      && r.value.endDateMs == c.deadline * MsPerSecond
      && r.value.startDateMs == r.value.endDateMs - WeekMs
      && r.value.startDateMs < r.value.endDateMs
      && r.value.creator == c.creator
      && r.value.stakeAmount == c.prizePool
      && r.value.ended == c.ended
      && r.value.participants == c.participants
      && r.value.title == Field(c.goal.value, "title")
      && r.value.scheduleType == Field(c.goal.value, "scheduleType")
      && r.value.scheduleDays == Field(c.goal.value, "scheduleDays")
      && r.value.targetDistance == Field(c.goal.value, "targetDistance")
  {
    match ReadCompetition(node, id)
    case Err(e) => Err(e)
    case Ok(c) =>
      match c.goal
      case None => Err(SyntaxError)
      case Some(goal) =>
        match Property(goal, "title")
        case Err(e) => Err(e)
        case Ok(title) =>
          var endMs := c.deadline * 1000;
          Ok(Details(c.creator, title, c.prizePool, endMs - 7 * 24 * 60 * 60 * 1000, endMs,
                     Field(goal, "scheduleType"), Field(goal, "scheduleDays"),
                     Field(goal, "targetDistance"), c.ended, c.participants))
  }

  /** A competition created through `createChallenge` reads back with the
      title, schedule and distance it was created with. */
  lemma DetailsRoundTrip(node: Node, id: int, g: Goal)
    requires ReadCompetition(node, id).Ok? && ReadCompetition(node, id).value.goal == Some(EncodeGoal(g))
    ensures GetChallengeDetails(node, id).Ok?
    ensures var d := GetChallengeDetails(node, id).value;
      && d.title == Some(JString(g.title))
      && d.scheduleType == Some(JString(g.scheduleType))
      && d.scheduleDays == Some(JArray(StringArray(g.scheduleDays)))
      && d.targetDistance == Some(JNumber(g.targetDistance))
  {
    EncodeGoalFields(g);
  }

  /** `isParticipant`: true for every address once the read succeeds. */
  function IsParticipant(node: Node, id: int, address: string): (r: Result<bool, Failure>)
    ensures r.Ok? <==> ReadCompetition(node, id).Ok?
    ensures r.Ok? ==> r.value
    ensures r.Err? ==> r.error == ReadCompetition(node, id).error
  {
    match ReadCompetition(node, id)
    case Err(e) => Err(e)
    case Ok(_) => Ok(true)
  }

  /** `isStravaConnected`: the chain does not track Strava links, so every
      address counts as connected. */
  function IsStravaConnected(id: int, address: string): (r: bool)
    ensures r
  {
    true
  }
}

=== FILE: create_challenge.dfy ===
/** The create-challenge modal: three steps (connect the accounts, pick
    the activity, fill in the details), the draft the details step edits,
    and what the modal asks its parent to do. Each user action or effect
    run is an event; `Step` gives the next modal state and the effect. */
module CreateChallenge {
  import Calendar
  import Seqs

  datatype FormStep = Connect | ChooseType | Details

  datatype Activity = Free | Run | Ride | Swim

  datatype Kind = Daily | Weekly

  datatype Schedule = Schedule(kind: Kind, days: seq<string>, distance: real, timezone: string, activity: Activity)

  /** The contest draft the modal hands to its parent. */
  datatype Draft = Draft(title: string, stakeAmount: real, schedule: Schedule)

  datatype Modal = Modal(step: FormStep, activity: Activity, draft: Draft)

  /** What happens to the modal: the connection step's effect running
      with the two connection flags, a click, or a form edit. Only the
      controls of the current step can fire. */
  datatype Event =
    | Sync(stravaConnected: bool, walletConnected: bool)
    | ClickConnectStrava
    | ClickConnectWallet
    | PickFree
    | PickRun(stravaConnected: bool)
    | Continue
    | Back
    | EditTitle(title: string)
    | EditDistance(distance: real)
    | PickDaily
    | PickWeekly
    | ToggleDay(day: Calendar.Weekday)
    | EditStake(stake: real)
    | Submit
    | Close

  /** The parent callback an event calls. */
  datatype Effect = NoEffect | StartStravaConnect | OpenWalletAuth | SubmitDraft(draft: Draft) | CloseModal

  datatype Outcome = Outcome(modal: Modal, effect: Effect)

  /** The modal as it opens. */
  const Initial: Modal :=
    Modal(Connect, Free, Draft("", 0.1, Schedule(Daily, Calendar.AllDayNames(), 3.0, "", Free)))

  // ---------------------------------------------------------------------
  // Draft edits

  /** The days after clicking a day's checkbox: its name is appended when
      unchecked, and every occurrence removed when checked. */
  function ToggledDays(days: seq<string>, day: Calendar.Weekday): (r: seq<string>)
    ensures day.Name() in r <==> day.Name() !in days
    ensures forall x :: x != day.Name() ==> (x in r <==> x in days)
    ensures day.Name() !in days ==> r == days + [day.Name()]
  {
    if day.Name() in days then Seqs.RemoveAll(days, day.Name()) else days + [day.Name()]
  }

  /** `x` is a multiple of `1 / scale`, as a number input's `step`
      demands when `min` is itself such a multiple. */
  predicate OnGrid(x: real, scale: int) {
    (x * scale as real).Floor as real == x * scale as real
  }

  /** The browser's constraint validation of the details form: a title
      (it is `required`), a distance of at least 0.1 on the 0.1 grid and a
      stake of at least 0.01 on the 0.01 grid. An invalid form is not
      submitted. */
  predicate Submittable(d: Draft) {
    && d.title != ""
    && d.schedule.distance >= 0.1 && OnGrid(d.schedule.distance, 10)
    && d.stakeAmount >= 0.01 && OnGrid(d.stakeAmount, 100)
  }

  function WithActivity(m: Modal, a: Activity): Modal {
    m.(activity := a, draft := m.draft.(schedule := m.draft.schedule.(activity := a)))
  }

  function WithSchedule(m: Modal, s: Schedule): Modal {
    m.(draft := m.draft.(schedule := s))
  }

  // ---------------------------------------------------------------------
  // Transitions

  /** The modal's reaction to one event. */
  function Step(m: Modal, e: Event): (o: Outcome)
    ensures e == Close ==> o == Outcome(m, CloseModal)
    ensures o.effect.SubmitDraft? <==> m.step == Details && e == Submit && Submittable(m.draft)
    ensures o.effect.SubmitDraft? ==> o == Outcome(m, SubmitDraft(m.draft))
  {
    var same := Outcome(m, NoEffect);
    var s := m.draft.schedule;
    match (m.step, e)
    case (_, Close) => Outcome(m, CloseModal)
    case (Connect, Sync(strava, wallet)) =>
      if strava && wallet then Outcome(m.(step := ChooseType), NoEffect) else same
    case (Connect, ClickConnectStrava) => Outcome(m, StartStravaConnect)
    case (Connect, ClickConnectWallet) => Outcome(m, OpenWalletAuth)
    case (ChooseType, PickFree) => Outcome(WithActivity(m, Free), NoEffect)
    case (ChooseType, PickRun(strava)) =>
      if strava then Outcome(WithActivity(m, Run), NoEffect) else Outcome(m, StartStravaConnect)
    case (ChooseType, Continue) => Outcome(m.(step := Details), NoEffect)
    case (Details, Back) => Outcome(m.(step := ChooseType), NoEffect)
    case (Details, EditTitle(t)) => Outcome(m.(draft := m.draft.(title := t)), NoEffect)
    case (Details, EditDistance(d)) => Outcome(WithSchedule(m, s.(distance := d)), NoEffect)
    case (Details, PickDaily) => Outcome(WithSchedule(m, s.(kind := Daily)), NoEffect)
    case (Details, PickWeekly) => Outcome(WithSchedule(m, s.(kind := Weekly)), NoEffect)
    case (Details, ToggleDay(day)) =>
      if s.kind == Weekly then Outcome(WithSchedule(m, s.(days := ToggledDays(s.days, day))), NoEffect) else same
    case (Details, EditStake(x)) => Outcome(m.(draft := m.draft.(stakeAmount := x)), NoEffect)
    case (Details, Submit) => if Submittable(m.draft) then Outcome(m, SubmitDraft(m.draft)) else same
    case _ => same
  }

  /** The modal after a run of events. */
  function Replay(m: Modal, events: seq<Event>): Modal
    decreases |events|
  {
    if |events| == 0 then m else Replay(Step(m, events[0]).modal, events[1..])
  }

  /** The step graph: connect to type, type to details and back. */
  predicate Edge(from: FormStep, to: FormStep) {
    || from == to
    || (from == Connect && to == ChooseType)
    || (from == ChooseType && to == Details)
    || (from == Details && to == ChooseType)
  }

  /** Every transition follows the step graph. */
  lemma StepFollowsEdges(m: Modal, e: Event)
    ensures Edge(m.step, Step(m, e).modal.step)
  {
  }

  /** Once the accounts are connected the modal never asks again. */
  lemma NeverBackToConnect(m: Modal, e: Event)
    requires m.step != Connect
    ensures Step(m, e).modal.step != Connect
  {
  }

  /** The connect step is left exactly when Strava and the wallet are both
      connected, and then for the type step. */
  lemma LeaveConnectIff(m: Modal, e: Event)
    requires m.step == Connect
    ensures Step(m, e).modal.step != Connect <==> e == Sync(true, true)
    ensures Step(m, e).modal.step != Connect ==> Step(m, e).modal == m.(step := ChooseType)
  {
  }

  /** Free form can always be chosen; Run needs Strava, and without it
      the click only starts the Strava connection. */
  lemma PickActivity(m: Modal, strava: bool)
    requires m.step == ChooseType
    ensures Step(m, PickFree).modal.activity == Free
    ensures strava ==> Step(m, PickRun(strava)).modal.activity == Run
    ensures !strava ==> Step(m, PickRun(strava)) == Outcome(m, StartStravaConnect)
  {
  }

  /** An activity change sets the modal's activity and the draft's to the
      same value and nothing else. */
  lemma ActivityChangeOnlyActivity(m: Modal, e: Event)
    requires m.step == ChooseType && (e == PickFree || e == PickRun(true))
    ensures var m' := Step(m, e).modal;
      && m'.activity == m'.draft.schedule.activity
      && m'.step == m.step
      && m'.draft.title == m.draft.title && m'.draft.stakeAmount == m.draft.stakeAmount
      && m'.draft.schedule.(activity := m.draft.schedule.activity) == m.draft.schedule
  {
  }

  /** Each details edit replaces its own field and leaves the rest of the
      modal as it was. */
  lemma EditsTouchOnlyTheirField(m: Modal, t: string, d: real, x: real)
    requires m.step == Details
    ensures var m' := Step(m, EditTitle(t)).modal;
      m'.draft.title == t && m'.(draft := m'.draft.(title := m.draft.title)) == m
    ensures var m' := Step(m, EditDistance(d)).modal;
      m'.draft.schedule.distance == d
      && m'.(draft := m'.draft.(schedule := m'.draft.schedule.(distance := m.draft.schedule.distance))) == m
    ensures var m' := Step(m, EditStake(x)).modal;
      m'.draft.stakeAmount == x && m'.(draft := m'.draft.(stakeAmount := m.draft.stakeAmount)) == m
    ensures var m' := Step(m, PickDaily).modal;
      m'.draft.schedule.kind == Daily && m'.draft.schedule.days == m.draft.schedule.days
      && m'.(draft := m'.draft.(schedule := m'.draft.schedule.(kind := m.draft.schedule.kind))) == m
    ensures var m' := Step(m, PickWeekly).modal;
      m'.draft.schedule.kind == Weekly && m'.draft.schedule.days == m.draft.schedule.days
      && m'.(draft := m'.draft.(schedule := m'.draft.schedule.(kind := m.draft.schedule.kind))) == m
  {
  }

  /** Clicking a day on a weekly schedule flips whether its name is in the
      list and leaves every other name, and the rest of the modal, alone. */
  lemma ToggleDayFlips(m: Modal, day: Calendar.Weekday)
    requires m.step == Details && m.draft.schedule.kind == Weekly
    ensures var m' := Step(m, ToggleDay(day)).modal;
      && (day.Name() in m'.draft.schedule.days <==> day.Name() !in m.draft.schedule.days)
      && (forall x :: x != day.Name() ==> (x in m'.draft.schedule.days <==> x in m.draft.schedule.days))
      && m'.(draft := m'.draft.(schedule := m'.draft.schedule.(days := m.draft.schedule.days))) == m
  {
  }

  /** Submitting hands over the current draft unchanged, and only a draft
      the form accepts; the modal itself stays as it is. */
  lemma SubmitHandsOverDraft(m: Modal)
    requires m.step == Details
    ensures Step(m, Submit).modal == m
    ensures Step(m, Submit).effect == SubmitDraft(m.draft) <==> Submittable(m.draft)
    ensures !Submittable(m.draft) ==> Step(m, Submit).effect == NoEffect
  {
  }

  // ---------------------------------------------------------------------
  // Invariant

  /** What every reachable modal satisfies: the two copies of the activity
      agree, only the enabled activities occur, and the day list holds day
      names without duplicates. */
  predicate Consistent(m: Modal) {
    && m.activity == m.draft.schedule.activity
    && (m.activity == Free || m.activity == Run)
    && Seqs.NoDuplicates(m.draft.schedule.days)
    && forall i :: 0 <= i < |m.draft.schedule.days| ==> m.draft.schedule.days[i] in Calendar.AllDayNames()
  }

  lemma InitialConsistent()
    ensures Consistent(Initial)
  {
    var days := Calendar.AllDayNames();
    assert Seqs.NoDuplicates(days) by {
      forall i, j | 0 <= i < j < |days| ensures days[i] != days[j] {
        assert days[i][0] != days[j][0] || days[i][1] != days[j][1];
      }
    }
  }

  /** A toggle keeps the day list free of duplicates and within the day
      names. */
  lemma ToggledDaysKeepsNames(days: seq<string>, day: Calendar.Weekday)
    requires Seqs.NoDuplicates(days)
    requires forall i :: 0 <= i < |days| ==> days[i] in Calendar.AllDayNames()
    ensures Seqs.NoDuplicates(ToggledDays(days, day))
    ensures forall i :: 0 <= i < |ToggledDays(days, day)| ==> ToggledDays(days, day)[i] in Calendar.AllDayNames()
  {
    if day.Name() in days {
      Seqs.RemoveAllNoDuplicates(days, day.Name());
    } else {
      Seqs.AppendAbsentNoDuplicates(days, day.Name());
    }
  }

  lemma StepConsistent(m: Modal, e: Event)
    requires Consistent(m)
    ensures Consistent(Step(m, e).modal)
  {
    if e.ToggleDay? {
      ToggledDaysKeepsNames(m.draft.schedule.days, e.day);
    }
  }

  /** Every modal reachable from the initial one is consistent. */
  lemma {:induction false} RunConsistent(m: Modal, events: seq<Event>)
    requires Consistent(m)
    ensures Consistent(Replay(m, events))
    decreases |events|
  {
    if |events| > 0 {
      StepConsistent(m, events[0]);
      RunConsistent(Step(m, events[0]).modal, events[1..]);
    }
  }

  lemma ReachableConsistent(events: seq<Event>)
    ensures Consistent(Replay(Initial, events))
  {
    InitialConsistent();
    RunConsistent(Initial, events);
  }
}

=== FILE: dashboard.dfy ===
/** The dashboard page's two handlers: `loadContests`, which reads every
    challenge from the chain, maps it to a view and splits the views into
    the ones the signer takes part in and the rest, and
    `handleCreateContest`, which normalises the schedule days, sends the
    create transaction and resets the draft. */
module Dashboard {
  import opened Wrappers
  import Calendar
  import Seqs
  import CS = ContractService

  datatype Status = Active | Ended

  datatype ParticipantView = ParticipantView(id: int, name: string, address: string, paid: bool,
                                             completedDays: nat, stravaConnected: bool)

  /** The schedule as the page shows it; the goal fields stay JSON values,
      `None` where the goal lacks them. */
  datatype ScheduleView = ScheduleView(kind: Option<CS.Json>, days: Option<CS.Json>,
                                       distance: Option<CS.Json>, time: string)

  datatype ContestView = ContestView(id: int, title: Option<CS.Json>, stakeEther: real, schedule: ScheduleView,
                                     participants: seq<ParticipantView>, status: Status)

  datatype ContestList = ContestList(participating: seq<ContestView>, available: seq<ContestView>)

  const WeiPerEther: nat := 1_000_000_000_000_000_000

  // ---------------------------------------------------------------------
  // Display names

  /** A JavaScript slice bound: negative counts from the end, and the
      result is clamped to the string. */
  function SliceBound(i: int, len: nat): (r: nat)
    ensures r <= len
  {
    if i < 0 then (if len + i < 0 then 0 else len + i)
    else if i > len then len
    else i
  }

  /** `s.slice(start, end)`. */
  function Slice(s: string, start: int, end: int): string {
    var from, to := SliceBound(start, |s|), SliceBound(end, |s|);
    if from < to then s[from..to] else ""
  }

  function Min(a: int, b: int): int { if a < b then a else b }
  function Max(a: int, b: int): int { if a < b then b else a }

  /** `p.name || p.address.slice(0, 6) + '...' + p.address.slice(-4)`:
      a missing or empty name shows the address's first six and last four
      characters, or as many as it has. */
  function DisplayName(name: Option<string>, address: string): (r: string)
    ensures name.Some? && name.value != "" ==> r == name.value
    ensures !(name.Some? && name.value != "") ==>
      r == address[..Min(6, |address|)] + "..." + address[Max(0, |address| - 4)..]
  {
    if name.Some? && name.value != "" then name.value
    else Slice(address, 0, 6) + "..." + Slice(address, -4, |address|)
  }

  /** An Ethereum address (`0x` and forty hex digits) shows as thirteen
      characters that keep its `0x` prefix. */
  lemma AddressAbbreviation(address: string)
    requires |address| == 42
    ensures |DisplayName(None, address)| == 13
    ensures DisplayName(None, address)[..6] == address[..6]
    ensures DisplayName(None, address)[9..] == address[38..]
  {
  }

  // ---------------------------------------------------------------------
  // Loading

  function ToParticipant(p: CS.ChainParticipant): (v: ParticipantView)
    ensures v.id == p.id && v.address == p.address && v.paid
    ensures v.completedDays == p.completedDays && v.stravaConnected == p.stravaConnected
    ensures v.name == DisplayName(p.name, p.address)
  {
    ParticipantView(p.id, DisplayName(p.name, p.address), p.address, true, p.completedDays, p.stravaConnected)
  }

  function ToParticipants(ps: seq<CS.ChainParticipant>): (vs: seq<ParticipantView>)
    ensures |vs| == |ps|
    ensures forall i :: 0 <= i < |ps| ==> vs[i] == ToParticipant(ps[i])
  {
    if |ps| == 0 then [] else [ToParticipant(ps[0])] + ToParticipants(ps[1..])
  }

  /** The entry `loadContests` builds for challenge `id`. */
  function ToView(id: int, d: CS.Details): (v: ContestView)
    ensures v.id == id
    ensures v.status == Ended <==> d.ended
    ensures v.stakeEther * WeiPerEther as real == d.stakeAmount as real
    ensures v.title == d.title && v.schedule == ScheduleView(d.scheduleType, d.scheduleDays, d.targetDistance, "")
    ensures |v.participants| == |d.participants|
    ensures forall i :: 0 <= i < |d.participants| ==> v.participants[i].address == d.participants[i].address
    ensures v.participants == ToParticipants(d.participants)
  {
    ContestView(id, d.title, d.stakeAmount as real / WeiPerEther as real,
                ScheduleView(d.scheduleType, d.scheduleDays, d.targetDistance, ""),
                ToParticipants(d.participants), if d.ended then Ended else Active)
  }

  /** The read of challenge `id`, as the entry it becomes. */
  function Fetch(node: CS.Node, id: int): Result<ContestView, CS.Failure> {
    match CS.GetChallengeDetails(node, id)
    case Err(e) => Err(e)
    case Ok(d) => Ok(ToView(id, d))
  }

  /** A read succeeds exactly when the details read does, with that
      challenge's entry. */
  lemma FetchReads(node: CS.Node, id: int)
    ensures Fetch(node, id).Ok? <==> CS.GetChallengeDetails(node, id).Ok?
    ensures Fetch(node, id).Ok? ==> Fetch(node, id).value == ToView(id, CS.GetChallengeDetails(node, id).value)
    ensures Fetch(node, id).Err? ==> CS.GetChallengeDetails(node, id) == Err(Fetch(node, id).error)
  {
  }

  /** The reads of ids 1 through `n`, in the order they are made. */
  function Fetches(node: CS.Node, n: nat): (rs: seq<Result<ContestView, CS.Failure>>)
    ensures |rs| == n
    ensures forall i :: 0 <= i < n ==> rs[i] == Fetch(node, i + 1)
  {
    if n == 0 then [] else Fetches(node, n - 1) + [Fetch(node, n)]
  }

  /** The entries for ids 1 through `n`, fetched in ascending order; the
      first failing read fails the whole. */
  function AllFetched(node: CS.Node, n: nat): (r: Result<seq<ContestView>, CS.Failure>)
    ensures r.Ok? ==> |r.value| == n
  {
    Seqs.Collect(Fetches(node, n))
  }

  /** The fetch succeeds exactly when every read for ids 1 through `n`
      succeeds. */
  lemma AllFetchedOkIff(node: CS.Node, n: nat)
    ensures AllFetched(node, n).Ok? <==> forall i :: 1 <= i <= n ==> CS.GetChallengeDetails(node, i).Ok?
  {
    var rs := Fetches(node, n);
    Seqs.CollectOkIff(rs);
    assert forall i :: 0 <= i < n ==> (rs[i].Ok? <==> CS.GetChallengeDetails(node, i + 1).Ok?);
    assert (forall i :: 0 <= i < n ==> rs[i].Ok?) <==> forall i :: 1 <= i <= n ==> CS.GetChallengeDetails(node, i).Ok? by {
      if forall i :: 0 <= i < n ==> rs[i].Ok? {
        forall i | 1 <= i <= n ensures CS.GetChallengeDetails(node, i).Ok? {
          assert rs[i - 1].Ok?;
        }
      }
    }
  }

  /** A successful fetch holds, for each id `j` in 1 through `n`, the
      entry built from the details of challenge `j` at position `j - 1`. */
  lemma AllFetchedEntries(node: CS.Node, n: nat)
    requires AllFetched(node, n).Ok?
    ensures forall j :: 1 <= j <= n ==>
      CS.GetChallengeDetails(node, j).Ok?
      && AllFetched(node, n).value[j - 1] == ToView(j, CS.GetChallengeDetails(node, j).value)
  {
    forall j | 1 <= j <= n
      ensures CS.GetChallengeDetails(node, j).Ok?
      ensures AllFetched(node, n).value[j - 1] == ToView(j, CS.GetChallengeDetails(node, j).value)
    {
      AllFetchedEntry(node, n, j);
    }
  }

  lemma AllFetchedEntry(node: CS.Node, n: nat, j: int)
    requires AllFetched(node, n).Ok? && 1 <= j <= n
    ensures CS.GetChallengeDetails(node, j).Ok?
    ensures AllFetched(node, n).value[j - 1] == ToView(j, CS.GetChallengeDetails(node, j).value)
  {
    var rs := Fetches(node, n);
    Seqs.CollectValues(rs);
    assert rs[j - 1] == Fetch(node, j) == Ok(AllFetched(node, n).value[j - 1]);
    FetchReads(node, j);
  }

  /** A failed fetch fails with the error of the first id whose read
      failed. */
  lemma AllFetchedFirstError(node: CS.Node, n: nat)
    requires AllFetched(node, n).Err?
    ensures exists i :: 1 <= i <= n && CS.GetChallengeDetails(node, i) == Err(AllFetched(node, n).error)
                        && forall j :: 1 <= j < i ==> CS.GetChallengeDetails(node, j).Ok?
  {
    var rs := Fetches(node, n);
    Seqs.CollectFirstError(rs);
    var i :| 0 <= i < n && rs[i] == Err(AllFetched(node, n).error) && forall j :: 0 <= j < i ==> rs[j].Ok?;
    assert CS.GetChallengeDetails(node, i + 1) == Err(AllFetched(node, n).error);
    forall j | 1 <= j < i + 1 ensures CS.GetChallengeDetails(node, j).Ok? {
      assert rs[j - 1].Ok?;
    }
  }

  /** The fetched entries carry the ids 1 through `n`, in order. */
  lemma AllFetchedIds(node: CS.Node, n: nat)
    requires AllFetched(node, n).Ok?
    ensures forall i :: 0 <= i < n ==> AllFetched(node, n).value[i].id == i + 1
    ensures Seqs.Ascending(AllFetched(node, n).value, (c: ContestView) => c.id)
  {
    forall i | 0 <= i < n ensures AllFetched(node, n).value[i].id == i + 1 {
      AllFetchedId(node, n, i + 1);
    }
    NumberedAscending(AllFetched(node, n).value);
  }

  lemma AllFetchedId(node: CS.Node, n: nat, j: int)
    requires AllFetched(node, n).Ok? && 1 <= j <= n
    ensures AllFetched(node, n).value[j - 1].id == j
  {
    AllFetchedEntry(node, n, j);
  }

  /** Entries numbered 1, 2, 3, ... in order are in ascending id order. */
  lemma NumberedAscending(views: seq<ContestView>)
    requires forall i :: 0 <= i < |views| ==> views[i].id == i + 1
    ensures Seqs.Ascending(views, (c: ContestView) => c.id)
  {
  }

  /** Some participant of `c` has the signer's address. */
  predicate Participates(c: ContestView, me: string) {
    exists k :: 0 <= k < |c.participants| && c.participants[k].address == me
  }

  /** The participating and available lists: the two complementary
      filters under the membership test. */
  function SplitByMembership(views: seq<ContestView>, me: string): (r: ContestList)
    ensures |r.participating| + |r.available| == |views|
    ensures multiset(r.participating) + multiset(r.available) == multiset(views)
    ensures forall c :: c in views ==> (c in r.participating <==> Participates(c, me))
    ensures forall c :: c in views ==> (c in r.available <==> !Participates(c, me))
    ensures forall i :: 0 <= i < |r.participating| ==> Participates(r.participating[i], me)
    ensures forall i :: 0 <= i < |r.available| ==> !Participates(r.available[i], me)
  {
    var p := (c: ContestView) => Participates(c, me);
    Seqs.PartitionMultiset(views, p);
    assert forall c :: c in views ==> (c in Seqs.Partition(views, p).0 <==> p(c)) && (c in Seqs.Partition(views, p).1 <==> !p(c)) by {
      forall c | c in views
        ensures (c in Seqs.Partition(views, p).0 <==> p(c)) && (c in Seqs.Partition(views, p).1 <==> !p(c))
      {
        Seqs.PartitionExactlyOne(views, p, c);
      }
    }
    ContestList(Seqs.Filter(views, p), Seqs.Filter(views, Seqs.Not(p)))
  }

  /** Both lists keep the ascending id order of the fetched entries. */
  lemma SplitKeepsOrder(views: seq<ContestView>, me: string)
    requires Seqs.Ascending(views, (c: ContestView) => c.id)
    ensures Seqs.Ascending(SplitByMembership(views, me).participating, (c: ContestView) => c.id)
    ensures Seqs.Ascending(SplitByMembership(views, me).available, (c: ContestView) => c.id)
  {
    var p := (c: ContestView) => Participates(c, me);
    Seqs.FilterAscending(views, p, (c: ContestView) => c.id);
    Seqs.FilterAscending(views, Seqs.Not(p), (c: ContestView) => c.id);
  }

  /** One more successful read extends the fetched entries by one. */
  lemma AllFetchedStep(node: CS.Node, n: nat, views: seq<ContestView>)
    requires AllFetched(node, n) == Ok(views) && CS.GetChallengeDetails(node, n + 1).Ok?
    ensures AllFetched(node, n + 1) == Ok(views + [ToView(n + 1, CS.GetChallengeDetails(node, n + 1).value)])
  {
    Seqs.CollectAppend(Fetches(node, n), Fetch(node, n + 1));
  }

  /** A failed read of an id up to `n` fails the whole fetch. */
  lemma AllFetchedFails(node: CS.Node, i: nat, n: nat)
    requires 1 <= i <= n && CS.GetChallengeDetails(node, i).Err?
    ensures AllFetched(node, n).Err?
  {
    AllFetchedOkIff(node, n);
  }

  /** `loadContests`. `service` is the contract service (absent until a
      wallet provider exists), `me` the signer's address and `prev` the
      lists on screen. The lists are replaced only when every read
      succeeded. */
  method LoadContests(service: Option<CS.Node>, me: string, prev: ContestList) returns (r: ContestList)
    ensures service.None? ==> r == prev
    ensures service.Some? && CS.GetChallengeCount(service.value).Err? ==> r == prev
    ensures service.Some? && CS.GetChallengeCount(service.value).Ok? ==>
      var fetched := AllFetched(service.value, CS.GetChallengeCount(service.value).value);
      && (fetched.Err? ==> r == prev)
      && (fetched.Ok? ==> r == SplitByMembership(fetched.value, me))
    ensures service.Some? && CS.GetChallengeCount(service.value) == Ok(0) ==> r == ContestList([], [])
  {
    if service.None? {
      return prev;
    }
    var node := service.value;
    var countReply := CS.GetChallengeCount(node);
    if countReply.Err? {
      return prev;
    }
    var count := countReply.value;
    var challenges: seq<ContestView> := [];
    assert AllFetched(node, 0) == Ok(challenges) by {
      assert Fetches(node, 0) == [];
    }
    var i := 1;
    while i <= count
      invariant 1 <= i <= count + 1
      invariant AllFetched(node, i - 1) == Ok(challenges)
    {
      var details := CS.GetChallengeDetails(node, i);
      if details.Err? {
        AllFetchedFails(node, i, count);
        return prev;
      }
      AllFetchedStep(node, i - 1, challenges);
      challenges := challenges + [ToView(i, details.value)];
      i := i + 1;
    }
    if count == 0 {
      assert challenges == [];
      assert SplitByMembership(challenges, me) == ContestList([], []) by {
        assert Seqs.Filter(challenges, (c: ContestView) => Participates(c, me)) == [];
        assert Seqs.Filter(challenges, Seqs.Not((c: ContestView) => Participates(c, me))) == [];
      }
    }
    r := SplitByMembership(challenges, me);
  }

  // ---------------------------------------------------------------------
  // Creating

  datatype DraftSchedule = DraftSchedule(kind: string, days: seq<string>, distance: real, time: string)

  /** The `newContest` form state. */
  datatype NewContest = NewContest(title: string, stakeAmount: real, schedule: DraftSchedule)

  /** A log entry of the receipt: its event name and `challengeId`
      argument, if it has arguments. */
  datatype Event = Event(name: string, challengeId: Option<int>)

  datatype Receipt = Receipt(events: Option<seq<Event>>)

  /** The page state the create handler touches. */
  datatype Page = Page(list: ContestList, draft: NewContest, showStravaPrompt: bool, createdContestId: Option<int>)

  const ChallengeDuration: int := 30

  /** The form's initial and reset value: a daily 3 km schedule on all
      seven days, no stake, empty title and time. */
  const DefaultDraft: NewContest := NewContest("", 0.0, DraftSchedule("daily", Calendar.AllDayNames(), 3.0, ""))

  /** The days sent for a schedule: all seven for a daily one, the chosen
      ones otherwise. */
  function ScheduleDays(s: DraftSchedule): (days: seq<string>)
    ensures s.kind == "daily" ==> |days| == 7 && forall d: Calendar.Weekday :: d.Name() in days
    ensures s.kind == "daily" ==> days == Calendar.AllDayNames()
    ensures s.kind != "daily" ==> days == s.days
  {
    if s.kind == "daily" then Calendar.AllDayNames() else s.days
  }

  /** The id carried by the first `ChallengeCreated` event, if it has one. */
  function CreatedId(events: seq<Event>): (r: Option<int>)
    ensures r.Some? ==>
      exists i :: 0 <= i < |events| && events[i] == Event("ChallengeCreated", r)
        && forall j :: 0 <= j < i ==> events[j].name != "ChallengeCreated"
    ensures r.None? ==>
      || (forall i :: 0 <= i < |events| ==> events[i].name != "ChallengeCreated")
      || exists i :: 0 <= i < |events| && events[i] == Event("ChallengeCreated", None)
           && forall j :: 0 <= j < i ==> events[j].name != "ChallengeCreated"
  {
    if |events| == 0 then None
    else if events[0].name == "ChallengeCreated" then events[0].challengeId
    else CreatedId(events[1..])
  }

  /** `handleCreateContest`. `hasService` says whether a contract service
      exists; `outcome` is the confirmed receipt or the failure of the
      transaction. The result is the new page state and the transaction
      sent, if any. */
  function HandleCreate(page: Page, hasService: bool, outcome: Result<Receipt, CS.Failure>): (r: (Page, Option<CS.CreateCall>))
    ensures !hasService ==> r == (page, None)
    ensures hasService ==> r.1.Some?
    ensures hasService ==>
      var s := page.draft.schedule;
      && CS.ReadGoal(r.1.value.goal) == Some(CS.Goal(page.draft.title, s.kind, ScheduleDays(s), s.distance))
      && r.1.value.duration == ChallengeDuration
      && r.1.value.stake == page.draft.stakeAmount
    ensures hasService && outcome.Err? ==> r.0 == page
    ensures hasService && outcome.Ok? ==>
      && r.0.draft == DefaultDraft
      && r.0.showStravaPrompt
      && r.0.list == page.list
      && (outcome.value.events.Some? && CreatedId(outcome.value.events.value).Some? ==>
            r.0.createdContestId == CreatedId(outcome.value.events.value))
      && (outcome.value.events.None? || CreatedId(outcome.value.events.value).None? ==>
            r.0.createdContestId == page.createdContestId)
  {
    if !hasService then (page, None)
    else
      var s := page.draft.schedule;
      var call := CS.CreateChallenge(page.draft.title, ChallengeDuration, s.kind, ScheduleDays(s), s.distance,
                                     page.draft.stakeAmount);
      match outcome
      case Err(_) => (page, Some(call))
      case Ok(receipt) =>
        var created := if receipt.events.Some? then CreatedId(receipt.events.value) else None;
        var id := if created.Some? then created else page.createdContestId;
        (Page(page.list, DefaultDraft, true, id), Some(call))
  }
}

=== FILE: seqs.dfy ===
/** Order-preserving filters over sequences and the partition facts
    that both the backend contest list and the dashboard rely on. */
module Seqs {
  import opened Wrappers

  /** The elements of `xs` that satisfy `p`, in their original order. */
  function Filter<T>(xs: seq<T>, p: T -> bool): (r: seq<T>)
    ensures |r| <= |xs|
    ensures forall i :: 0 <= i < |r| ==> p(r[i])
  {
    if |xs| == 0 then []
    else if p(xs[0]) then [xs[0]] + Filter(xs[1..], p)
    else Filter(xs[1..], p)
  }

  /** The complement of a predicate. */
  function Not<T>(p: T -> bool): T -> bool {
    x => !p(x)
  }

  /** The two complementary filters of one list under one predicate. */
  function Partition<T>(xs: seq<T>, p: T -> bool): (seq<T>, seq<T>) {
    (Filter(xs, p), Filter(xs, Not(p)))
  }

  /** Keys strictly increase along the sequence. */
  ghost predicate Ascending<T>(xs: seq<T>, key: T -> int) {
    forall i, j :: 0 <= i < j < |xs| ==> key(xs[i]) < key(xs[j])
  }

  /** No value occurs twice. */
  predicate NoDuplicates<T(==)>(xs: seq<T>) {
    forall i, j :: 0 <= i < j < |xs| ==> xs[i] != xs[j]
  }

  /** `xs` without any occurrence of `x`. */
  function RemoveAll<T(==)>(xs: seq<T>, x: T): (r: seq<T>)
    ensures x !in r
    ensures forall i :: 0 <= i < |r| ==> r[i] in xs
    ensures forall i :: 0 <= i < |xs| && xs[i] != x ==> xs[i] in r
  {
    if |xs| == 0 then []
    else if xs[0] == x then RemoveAll(xs[1..], x)
    else [xs[0]] + RemoveAll(xs[1..], x)
  }

  /** An element is kept by the filter exactly when it is in the list and
      satisfies the predicate. */
  lemma {:induction false} FilterMembership<T>(xs: seq<T>, p: T -> bool, x: T)
    ensures x in Filter(xs, p) <==> x in xs && p(x)
  {
    if |xs| > 0 {
      FilterMembership(xs[1..], p, x);
      assert xs == [xs[0]] + xs[1..];
    }
  }

  /** Filtering a concatenation filters each part. */
  lemma {:induction false} FilterAppend<T>(xs: seq<T>, ys: seq<T>, p: T -> bool)
    ensures Filter(xs + ys, p) == Filter(xs, p) + Filter(ys, p)
  {
    if |xs| == 0 {
      assert xs + ys == ys;
    } else {
      assert (xs + ys)[1..] == xs[1..] + ys;
      FilterAppend(xs[1..], ys, p);
    }
  }

  /** The two complementary filters share out the multiset of the list:
      nothing is lost, nothing is duplicated. */
  lemma {:induction false} PartitionMultiset<T>(xs: seq<T>, p: T -> bool)
    ensures multiset(Filter(xs, p)) + multiset(Filter(xs, Not(p))) == multiset(xs)
    ensures |Filter(xs, p)| + |Filter(xs, Not(p))| == |xs|
  {
    if |xs| > 0 {
      PartitionMultiset(xs[1..], p);
      assert xs == [xs[0]] + xs[1..];
      assert multiset(xs) == multiset{xs[0]} + multiset(xs[1..]);
    }
  }

  /** Every element lands in exactly one of the two complementary filters. */
  lemma PartitionExactlyOne<T>(xs: seq<T>, p: T -> bool, x: T)
    requires x in xs
    ensures x in Partition(xs, p).0 <==> p(x)
    ensures x in Partition(xs, p).1 <==> !p(x)
  {
    FilterMembership(xs, p, x);
    FilterMembership(xs, Not(p), x);
  }

  /** A filter keeps the relative order of what it keeps: ascending keys
      stay ascending. */
  lemma {:induction false} FilterAscending<T>(xs: seq<T>, p: T -> bool, key: T -> int)
    requires Ascending(xs, key)
    ensures Ascending(Filter(xs, p), key)
  {
    if |xs| > 0 {
      FilterAscending(xs[1..], p, key);
      var rest := Filter(xs[1..], p);
      forall y | y in rest
        ensures key(xs[0]) < key(y)
      {
        FilterMembership(xs[1..], p, y);
        var j :| 0 <= j < |xs[1..]| && xs[1..][j] == y;
        assert xs[1 + j] == y;
      }
    }
  }

  /** Removing every occurrence keeps a duplicate-free list duplicate-free. */
  lemma {:induction false} RemoveAllNoDuplicates<T>(xs: seq<T>, x: T)
    requires NoDuplicates(xs)
    ensures NoDuplicates(RemoveAll(xs, x))
  {
    if |xs| > 0 {
      RemoveAllNoDuplicates(xs[1..], x);
      if xs[0] != x {
        assert xs[0] !in xs[1..];
        assert xs[0] !in RemoveAll(xs[1..], x);
      }
    }
  }

  /** Appending an absent value keeps a list duplicate-free. */
  lemma AppendAbsentNoDuplicates<T>(xs: seq<T>, x: T)
    requires NoDuplicates(xs) && x !in xs
    ensures NoDuplicates(xs + [x])
  {
  }

  // ---------------------------------------------------------------------
  // Sequential reads

  /** Reads taken in order and stopped at the first failure: all values
      when every read succeeds, otherwise the first error. */
  function Collect<T, E>(rs: seq<Result<T, E>>): (r: Result<seq<T>, E>)
    ensures r.Ok? ==> |r.value| == |rs|
  {
    if |rs| == 0 then Ok([])
    else match Collect(rs[..|rs| - 1])
      case Err(e) => Err(e)
      case Ok(vs) =>
        match rs[|rs| - 1]
        case Err(e) => Err(e)
        case Ok(v) => Ok(vs + [v])
  }

  /** One more read: its value is appended, or its error ends the run. */
  lemma CollectAppend<T, E>(rs: seq<Result<T, E>>, x: Result<T, E>)
    ensures Collect(rs + [x]) ==
      match Collect(rs)
      case Err(e) => Err(e)
      case Ok(vs) => (match x case Err(e) => Err(e) case Ok(v) => Ok(vs + [v]))
  {
    assert (rs + [x])[..|rs|] == rs;
  }

  lemma {:induction false} CollectOkIff<T, E>(rs: seq<Result<T, E>>)
    ensures Collect(rs).Ok? <==> forall i :: 0 <= i < |rs| ==> rs[i].Ok?
  {
    if |rs| > 0 {
      var init := rs[..|rs| - 1];
      CollectOkIff(init);
      assert forall i :: 0 <= i < |init| ==> init[i] == rs[i];
    }
  }

  /** A successful run holds every read's value, in order. */
  lemma {:induction false} CollectValues<T, E>(rs: seq<Result<T, E>>)
    requires Collect(rs).Ok?
    ensures forall i :: 0 <= i < |rs| ==> rs[i] == Ok(Collect(rs).value[i])
  {
    if |rs| > 0 {
      var init := rs[..|rs| - 1];
      CollectValues(init);
      assert forall i :: 0 <= i < |init| ==> init[i] == rs[i];
    }
  }

  /** A failed run fails with the error of its first failing read. */
  lemma {:induction false} CollectFirstError<T, E>(rs: seq<Result<T, E>>)
    requires Collect(rs).Err?
    ensures exists i :: 0 <= i < |rs| && rs[i] == Err(Collect(rs).error) && forall j :: 0 <= j < i ==> rs[j].Ok?
  {
    if |rs| > 0 {
      var init := rs[..|rs| - 1];
      assert forall i :: 0 <= i < |init| ==> init[i] == rs[i];
      if Collect(init).Err? {
        CollectFirstError(init);
        var i :| 0 <= i < |init| && init[i] == Err(Collect(init).error) && forall j :: 0 <= j < i ==> init[j].Ok?;
        assert rs[i] == Err(Collect(rs).error);
      } else {
        CollectOkIff(init);
        assert rs[|rs| - 1] == Err(Collect(rs).error);
      }
    }
  }
}

=== FILE: strava_manager.dfy ===
/** The pure helpers of the backend's Strava manager: duration
    formatting, the activity table (walks renamed to hikes, runs kept,
    kilometres added), the challenge completion test and the month and
    year query windows. The Strava client itself is replaced by the
    activities it returns. */
module StravaManager {
  import opened Wrappers
  import opened Calendar
  import Seqs

  // ---------------------------------------------------------------------
  // Durations

  /** Hours, minutes and seconds of a duration. */
  datatype Hms = Hms(hours: int, minutes: int, seconds: int)

  /** Python's two `divmod` steps. The divisors are positive, so Python's
      floor division and Dafny's Euclidean division agree, negative
      durations included. */
  function Decompose(seconds: int): (t: Hms)
    ensures t.hours * 3600 + t.minutes * 60 + t.seconds == seconds
    ensures 0 <= t.minutes < 60 && 0 <= t.seconds < 60
  {
    var rem := seconds % 3600;
    Hms(seconds / 3600, rem / 60, rem % 60)
  }

  /** The decomposition is the only one with minutes and seconds below 60. */
  lemma DecomposeUnique(seconds: int, t: Hms)
    requires t.hours * 3600 + t.minutes * 60 + t.seconds == seconds
    requires 0 <= t.minutes < 60 && 0 <= t.seconds < 60
    ensures t == Decompose(seconds)
  {
    var d := Decompose(seconds);
    var a := t.minutes * 60 + t.seconds;
    var b := d.minutes * 60 + d.seconds;
    assert 0 <= a < 3600 && 0 <= b < 3600;
    assert (t.hours - d.hours) * 3600 == b - a;
  }

  predicate IsDigit(c: char) {
    '0' <= c <= '9'
  }

  predicate AllDigits(s: string) {
    forall i :: 0 <= i < |s| ==> IsDigit(s[i])
  }

  function DigitChar(d: int): (c: char)
    requires 0 <= d < 10
    ensures IsDigit(c) && c as int - '0' as int == d
  {
    ('0' as int + d) as char
  }

  /** The decimal digits of `n`, without leading zeros. */
  function Digits(n: nat): (s: string)
    ensures |s| >= 1 && AllDigits(s)
    ensures n >= 10 ==> |s| >= 2
    ensures n >= 1 ==> s[0] != '0'
  {
    if n < 10 then [DigitChar(n)] else Digits(n / 10) + [DigitChar(n % 10)]
  }

  /** The number a string of decimal digits denotes. */
  function DigitsValue(s: string): int
    requires AllDigits(s)
  {
    if |s| == 0 then 0
    else DigitsValue(s[..|s| - 1]) * 10 + (s[|s| - 1] as int - '0' as int)
  }

  /** Reading the digits back gives the number. */
  lemma {:induction false} DigitsRoundTrip(n: nat)
    ensures DigitsValue(Digits(n)) == n
  {
    if n >= 10 {
      DigitsRoundTrip(n / 10);
      var s := Digits(n);
      assert s[..|s| - 1] == Digits(n / 10);
    }
  }

  /** Two-digit numbers have exactly two digits. */
  lemma TwoDigits(n: nat)
    requires 10 <= n < 100
    ensures |Digits(n)| == 2
  {
  }

  /** Python's `"{:02}".format(n)`: zero-padded to width two, the sign
      counting towards the width, wider numbers kept whole. */
  function Pad2(n: int): (s: string)
    ensures |s| >= 2
    ensures n >= 0 ==> AllDigits(s)
    ensures 0 <= n < 100 ==> |s| == 2
    ensures 0 <= n < 10 ==> s[0] == '0'
    ensures n >= 10 ==> s[0] != '0'
    ensures n < 0 ==> s[0] == '-' && s[1..] == Digits(-n)
  {
    if n < 0 then "-" + Digits(-n)
    else if n < 10 then "0" + Digits(n)
    else (if n < 100 then TwoDigits(n); Digits(n) else Digits(n))
  }

  /** Padding never changes the value of a non-negative number. */
  lemma Pad2Value(n: nat)
    ensures DigitsValue(Pad2(n)) == n
  {
    DigitsRoundTrip(n);
    if n < 10 {
      var s := Pad2(n);
      assert s[..|s| - 1] == "0";
    }
  }

  /** `seconds_to_hms`: hours, minutes and seconds, each at least two
      digits wide, separated by "h" and "min". */
  function SecondsToHms(seconds: int): (s: string)
    ensures seconds >= 0 ==> |s| >= 10
  {
    var t := Decompose(seconds);
    Pad2(t.hours) + "h" + Pad2(t.minutes) + "min" + Pad2(t.seconds)
  }

  /** The hours field is exactly `{:02}` of the whole hours: two digits
      below 10 hours, and no padding at all from 10 hours on. */
  lemma SecondsToHmsHours(seconds: int)
    ensures |SecondsToHms(seconds)| >= 8
    ensures SecondsToHms(seconds)[..|SecondsToHms(seconds)| - 8] == Pad2(seconds / 3600)
  {
    var t := Decompose(seconds);
    HmsShape(Pad2(t.hours), Pad2(t.minutes), Pad2(t.seconds));
  }

  /** Reads a duration back from the `SecondsToHms` format: the last two
      characters are the seconds, before them "min", two minute digits,
      "h", and all the rest is the hours. */
  function ParseHms(s: string): Option<int> {
    if |s| < 10 then None
    else
      var hours := s[..|s| - 8];
      var minutes := s[|s| - 7..|s| - 5];
      var secs := s[|s| - 2..];
      if s[|s| - 8] == 'h' && s[|s| - 5..|s| - 2] == "min"
         && AllDigits(hours) && AllDigits(minutes) && AllDigits(secs)
      then Some(DigitsValue(hours) * 3600 + DigitsValue(minutes) * 60 + DigitsValue(secs))
      else None
  }

  /** The formatted duration determines the duration: nothing is
      truncated, however many hours there are. */
  lemma HmsRoundTrip(seconds: nat)
    ensures ParseHms(SecondsToHms(seconds)) == Some(seconds)
  {
    var t := Decompose(seconds);
    var h, m, sec := Pad2(t.hours), Pad2(t.minutes), Pad2(t.seconds);
    var s := h + "h" + m + "min" + sec;
    assert s == SecondsToHms(seconds);
    Pad2Value(t.hours);
    Pad2Value(t.minutes);
    Pad2Value(t.seconds);
    HmsShape(h, m, sec);
  }

  /** Where the pieces of an `HhMMminSS` text sit, counted from its end. */
  lemma HmsShape(h: string, m: string, sec: string)
    requires |m| == 2 && |sec| == 2
    ensures var s := h + "h" + m + "min" + sec;
      && |s| == |h| + 8
      && s[..|s| - 8] == h
      && s[|s| - 8] == 'h'
      && s[|s| - 7..|s| - 5] == m
      && s[|s| - 5..|s| - 2] == "min"
      && s[|s| - 2..] == sec
  {
    var s := h + "h" + m + "min" + sec;
    assert s[..|s| - 8] == h;
    assert s[|s| - 7..|s| - 5] == m;
    assert s[|s| - 5..|s| - 2] == "min";
    assert s[|s| - 2..] == sec;
  }

  /** `seconds_to_h`: the whole hours in a duration, rounded down. */
  function SecondsToH(seconds: int): (h: int)
    ensures h * 3600 <= seconds < h * 3600 + 3600
  {
    seconds / 3600
  }

  /** The whole-hour figure is the hour part of the full decomposition. */
  lemma SecondsToHAgrees(seconds: int)
    ensures SecondsToH(seconds) == Decompose(seconds).hours
  {
  }

  // ---------------------------------------------------------------------
  // Activities

  /** One activity as Strava lists it: distance in metres, moving time in
      seconds. */
  datatype Activity = Activity(id: int, kind: string, distance: real, startLocal: DateTime, movingTime: int)

  /** One row of the activity table. */
  datatype Row = Row(id: int, kind: string, distance: real, distanceKm: real,
                     startLocal: DateTime, movingTimeFormat: string)

  /** Walks are renamed hikes "for consistency"; the rest of a row is
      derived from the activity. */
  function ToRow(a: Activity): (r: Row)
    ensures r.kind == "Run" <==> a.kind == "Run"
    ensures a.kind == "Walk" ==> r.kind == "Hike"
    ensures a.kind != "Walk" ==> r.kind == a.kind
    ensures r.kind != "Walk"
    ensures r.id == a.id && r.distance == a.distance && r.startLocal == a.startLocal
    ensures r.distanceKm * 1000.0 == a.distance
    ensures a.movingTime >= 0 ==> ParseHms(r.movingTimeFormat) == Some(a.movingTime)
  {
    var row := Row(a.id, if a.kind == "Walk" then "Hike" else a.kind, a.distance, a.distance / 1000.0,
                   a.startLocal, SecondsToHms(a.movingTime));
    if a.movingTime >= 0 then HmsRoundTrip(a.movingTime); row else row
  }

  function Rows(acts: seq<Activity>): (rows: seq<Row>)
    ensures |rows| == |acts|
    ensures forall i :: 0 <= i < |acts| ==> rows[i] == ToRow(acts[i])
  {
    if |acts| == 0 then [] else [ToRow(acts[0])] + Rows(acts[1..])
  }

  predicate IsRunRow(r: Row) {
    r.kind == "Run"
  }

  predicate IsRun(a: Activity) {
    a.kind == "Run"
  }

  /** `get_strava_activities_pandas`: the table of runs only. */
  function ActivityTable(acts: seq<Activity>): (rows: seq<Row>)
    ensures |rows| <= |acts|
    ensures forall i :: 0 <= i < |rows| ==> rows[i].kind == "Run"
  {
    Seqs.Filter(Rows(acts), IsRunRow)
  }

  /** An activity makes it into the table exactly when Strava typed it
      "Run": no walk survives, and renaming walks loses no run. */
  lemma TableMembership(acts: seq<Activity>, a: Activity)
    requires a in acts
    ensures ToRow(a) in ActivityTable(acts) <==> IsRun(a)
  {
    var i :| 0 <= i < |acts| && acts[i] == a;
    assert Rows(acts)[i] == ToRow(a);
    Seqs.FilterMembership(Rows(acts), IsRunRow, ToRow(a));
  }

  /** Filtering after the walk-to-hike renaming is filtering on Strava's
      own type. */
  lemma {:induction false} TableIsRunsOnly(acts: seq<Activity>)
    ensures ActivityTable(acts) == Rows(Seqs.Filter(acts, IsRun))
  {
    if |acts| > 0 {
      TableIsRunsOnly(acts[1..]);
      assert Rows(acts)[1..] == Rows(acts[1..]);
    }
  }

  /** The `distance_km` column summed. */
  function TotalKm(rows: seq<Row>): real {
    if |rows| == 0 then 0.0 else rows[0].distanceKm + TotalKm(rows[1..])
  }

  /** Metres run, from the activity list itself. */
  function RunMetres(acts: seq<Activity>): real {
    if |acts| == 0 then 0.0
    else (if IsRun(acts[0]) then acts[0].distance else 0.0) + RunMetres(acts[1..])
  }

  /** The table's kilometres are the metres run, divided by 1000. */
  lemma {:induction false} TableKm(acts: seq<Activity>)
    ensures TotalKm(ActivityTable(acts)) * 1000.0 == RunMetres(acts)
  {
    if |acts| > 0 {
      TableKm(acts[1..]);
      assert Rows(acts)[1..] == Rows(acts[1..]);
    }
  }

  /** The metres run over two stretches of activities add up. */
  lemma {:induction false} RunMetresAppend(a: seq<Activity>, b: seq<Activity>)
    ensures RunMetres(a + b) == RunMetres(a) + RunMetres(b)
  {
    if |a| == 0 {
      assert a + b == b;
    } else {
      assert (a + b)[1..] == a[1..] + b;
      RunMetresAppend(a[1..], b);
    }
  }

  predicate NonNegativeDistances(acts: seq<Activity>) {
    forall i :: 0 <= i < |acts| ==> acts[i].distance >= 0.0
  }

  lemma {:induction false} RunMetresNonNegative(acts: seq<Activity>)
    requires NonNegativeDistances(acts)
    ensures RunMetres(acts) >= 0.0
  {
    if |acts| > 0 {
      RunMetresNonNegative(acts[1..]);
    }
  }

  /** `check_challenge_completion`. `fetched` is what the Strava query
      over the window returned, `None` when fetching or tabulating
      raised; such a failure reads as "not completed". */
  function CheckChallengeCompletion(fetched: Option<seq<Activity>>, targetKm: real): (done: bool)
    ensures done <==> fetched.Some? && RunMetres(fetched.value) >= targetKm * 1000.0
  {
    match fetched
    case None => false
    case Some(acts) => TableKm(acts); TotalKm(ActivityTable(acts)) >= targetKm
  }

  /** Further activities never undo a completed challenge. */
  lemma CompletionMonotone(acts: seq<Activity>, more: seq<Activity>, targetKm: real)
    requires NonNegativeDistances(more)
    requires CheckChallengeCompletion(Some(acts), targetKm)
    ensures CheckChallengeCompletion(Some(acts + more), targetKm)
  {
    RunMetresAppend(acts, more);
    RunMetresNonNegative(more);
  }

  // ---------------------------------------------------------------------
  // Query windows

  datatype Window = Window(start: DateTime, end: DateTime)

  /** Python's exceptions on building a date-time. */
  datatype DateError = ValueError | OverflowError

  /** `get_activities_for_month`: from the first of the month at midnight
      to 32 days later, moved back to the first of that month, minus one
      second. */
  function MonthWindow(year: int, month: int): (r: Result<Window, DateError>)
    ensures r == Err(ValueError) <==> !(1 <= month <= 12 && MinYear <= year <= MaxYear)
    ensures r.Ok? ==> r.value.start == DateTime(Date(year, month, 1), 0, 0, 0)
  {
    if !(1 <= month <= 12 && MinYear <= year <= MaxYear) then Err(ValueError)
    else
      var start := DateTime(Date(year, month, 1), 0, 0, 0);
      match AddDays(start.date, 32)
      case None => Err(OverflowError)
      case Some(d) =>
        var boundary := DateTime(Date(d.year, d.month, 1), start.hour, start.minute, 0);
        match SubtractSecond(boundary)
        case None => Err(OverflowError)
        case Some(end) => Ok(Window(start, end))
  }

  /** The month window is defined for every month but December 9999, and
      runs from the first second to the last second of the month. */
  lemma MonthWindowBounds(year: int, month: int)
    ensures MonthWindow(year, month).Ok? <==>
      1 <= month <= 12 && MinYear <= year <= MaxYear && !(year == MaxYear && month == 12)
    ensures MonthWindow(year, month).Ok? ==>
      MonthWindow(year, month).value ==
        Window(DateTime(Date(year, month, 1), 0, 0, 0),
               DateTime(Date(year, month, DaysInMonth(year, month)), 23, 59, 59))
  {
    if 1 <= month <= 12 && MinYear <= year <= MaxYear {
      AddThirtyTwoDays(year, month);
    }
  }

  /** Every instant of the month lies inside its window. */
  lemma MonthWindowCovers(year: int, month: int, t: DateTime)
    requires MonthWindow(year, month).Ok?
    requires ValidDateTime(t) && t.date.year == year && t.date.month == month
    ensures NoLater(MonthWindow(year, month).value.start, t)
    ensures NoLater(t, MonthWindow(year, month).value.end)
  {
    MonthWindowBounds(year, month);
  }

  /** `get_activities_for_year`: 1 January 00:00:00 to 31 December
      23:59:59. */
  function YearWindow(year: int): (r: Result<Window, DateError>)
    ensures r.Ok? <==> MinYear <= year <= MaxYear
    ensures r.Ok? ==> ValidDateTime(r.value.start) && ValidDateTime(r.value.end)
    ensures r.Ok? ==> r.value.start.date.year == year && r.value.end.date.year == year
  {
    if MinYear <= year <= MaxYear then
      Ok(Window(DateTime(Date(year, 1, 1), 0, 0, 0), DateTime(Date(year, 12, 31), 23, 59, 59)))
    else Err(ValueError)
  }

  /** Every instant of the year lies inside its window. */
  lemma YearWindowCovers(year: int, t: DateTime)
    requires ValidDateTime(t) && t.date.year == year
    ensures YearWindow(year).Ok?
    ensures NoLater(YearWindow(year).value.start, t) && NoLater(t, YearWindow(year).value.end)
  {
  }
}

=== FILE: wrappers.dfy ===
/** Failure-carrying datatypes shared by every module of the model. */
module Wrappers {

  /** An optional value: `None` plays the part of Python's `None` and of
      JavaScript's `undefined`. */
  datatype Option<+T> = None | Some(value: T)

  /** The outcome of an operation that either yields a value or fails
      with an error tag (an HTTP error reply, a thrown exception). */
  datatype Result<+T, +E> = Ok(value: T) | Err(error: E)
}
